=== FILE: README.md ===
# Vanity: a verified model of its decision and string logic

Vanity is a Django site with two apps. The generator app turns a caption request (an
event, a style, an audience) into five social-media captions built from fixed templates.
The productivity app keeps tasks, diary events, daily summaries and canned advice for a
signed-in user. Its content_generator/api.py holds a JSON API over content-generation
requests, but no URL configuration routes to it, and it imports six names that the app's
models, forms and views do not define, so as written it cannot even be imported. A
registration page admits exactly one account name, and a helper detects mobile browsers
from the User-Agent header.

This project models, in Dafny, the parts of that code that decide something:

- `Text` — Python's `str.strip()`, ASCII `str.lower()` and substring `in`.
- `Device` — `is_mobile_device` (utils.py).
- `CaptionTemplates` — caption templates as token sequences, their rendering, and a
  reference `str.format` over strings that the rendering is proved to agree with.
- `GeneratorModels` — `ContentRequest`'s choice sets, field limits and image extensions
  (generator/models.py), and the `ContentGenerationForm` that validates a submission
  (generator/forms.py).
- `GeneratorViews` — `generate_content`, `form_valid` and `results_view`
  (generator/views.py). `generate_content` is a method with a loop, proved equal to the
  function `Captions`. The saved requests and the session are the fields of the class
  `GeneratorSite`.
- `ContentModels` — the rows of the productivity app, with their choice sets, defaults and
  title limits (content_generator/models.py).
- `ContentForms` — the `TaskForm` that `add_task` validates with
  (content_generator/forms.py).
- `ProductivityRules` — the task advice table, the work evaluation, the daily-summary text,
  the `task_list` and `daily_summary` counters, and the streak loop (a method over a set of
  day numbers).
- `ProductivityStore` — the handlers that change rows, as methods of the class `Board`.
  Its fields are the task, advice and summary tables.
- `ContentApi` — `ContentGenerationAPI.get`/`post` and `toggle_favorite_api`, as members of
  the class `ContentStore`. Its fields are the request and content tables. It models the
  logic of content_generator/api.py as if the names that module imports existed.
- `Accounts` — `home` and the ordered checks of `register` (vanity_project/views.py).

Days are integers, and instants are integers too. Clock readings, parsed dates, the
formatted due date, the rate limiter's verdict, the generator's output and the
`random.choice` index are all parameters.

Three behaviours of the code that a reader, or the favourite tests at
content_generator/tests.py:357-380, may not expect:

- `update_willingness` answers '更新失败' for a task that is not the caller's. Its 404 is
  raised inside the `try` and caught there.
- `toggle_favorite_api` refuses anonymous callers before it looks the content up. The
  favourite tests that call it without logging in therefore expect the wrong answer.
- An id of 0 (in the session, or in the API path) is read as "no id", as Python's
  truthiness test does.

## Model

| member | source | states |
|---|---|---|
| Text.Strip | vanity_project/views.py:21 | the result has no whitespace at either end and is the input with only whitespace removed around it |
| Text.StripIdempotent | vanity_project/views.py:21 | stripping twice equals stripping once |
| Text.StripOfPadded | vanity_project/views.py:21 | whitespace around a text with non-space ends is exactly what strip removes |
| Text.Lower | utils.py:15 | lower-casing keeps the length and maps each character by itself |
| Text.ContainsExtend | utils.py:20 | a substring stays a substring when characters are added on either side |
| Device.IsMobileDevice | utils.py:5-20 | a missing or empty User-Agent is not mobile |
| Device.MobileMonotone | utils.py:20 | adding characters to a mobile User-Agent keeps it mobile |
| Device.CaseInsensitive | utils.py:15 | two headers equal up to letter case get the same answer |
| Device.UpperCaseIphoneDetected | utils.py:15-18 | an upper-case "IPHONE" header is detected |
| Device.RedundantKeywords | utils.py:16-20 | the nine keywords match exactly when the seven without "iemobile" and "mobile safari" do |
| CaptionTemplates.FormatEscape | generator/views.py:142-146 | formatting escaped literal text yields the text itself |
| CaptionTemplates.FormatPrint | generator/views.py:142-146 | `str.format` on a template's source text never fails and yields the template's rendering |
| CaptionTemplates.RenderAppend | generator/views.py:142-146 | rendering a concatenation renders each part |
| CaptionTemplates.RenderIgnoresEmoji | generator/views.py:142-146 | a template without `{emoji}` renders the same for every emoji |
| CaptionTemplates.RenderKeepsLiteral | generator/views.py:142-146 | every literal of a template appears in place in the rendering |
| GeneratorModels.ParseStyle | generator/models.py:20-31 | a key is accepted exactly when it is one of the ten STYLE_CHOICES keys |
| GeneratorModels.StyleDisplay | generator/views.py:150 | a known key shows its label; an unknown stored key shows as itself |
| GeneratorModels.ParseLanguage | generator/models.py:7-18 | a code is accepted exactly when it is one of the ten LANGUAGE_CHOICES codes |
| GeneratorModels.LastDot | generator/models.py:38 | the index of the last dot, or none when the name has no dot |
| GeneratorModels.Extension | generator/models.py:34-40 | when the last dot has text on both sides, the extension is the lower-cased text after it; otherwise, and only then, it is empty |
| GeneratorModels.ExtensionExamples | generator/models.py:34-40 | "a.png.jpg" gives "jpg", "photo.PNG" gives "png", ".jpg" and "photo." give no extension |
| GeneratorModels.Errors | generator/forms.py:4-15 | no errors exactly when every field passes, and every field's error is reported |
| GeneratorModels.ChecksPassIffAccepted | generator/forms.py:4-15 | the seven field checks all pass exactly when the form accepts the submission |
| GeneratorModels.CleanedRowValid | generator/models.py:33-83 | the cleaned values of an accepted submission make a valid row |
| GeneratorModels.Validate | generator/forms.py:4-15 | the form accepts exactly when style and language are submitted and known, audience type and description are non-empty after stripping, and every stripped text is within its limit; the row carries the stripped texts and the submitted style and language; a refused submission has 1 to 7 errors, with a required error for a missing style or language |
| GeneratorModels.ValidateAcceptsValid | generator/forms.py:4-15 | every valid row, submitted again as the form shows it, is accepted unchanged |
| GeneratorModels.MissingLanguageRefused | generator/models.py:58-63 | the model's zh-cn default does not reach the form: a submission without a language is refused with a required error |
| GeneratorModels.BlankAudienceTypeRefused | generator/models.py:66-69 | an audience type of whitespace only is stripped to nothing and refused as required |
| GeneratorModels.UnknownStyleRefused | generator/models.py:51-55 | a style outside the choices is refused with an invalid-choice error |
| GeneratorViews.StyleTemplates | generator/views.py:40-111 | every style has five templates |
| GeneratorViews.StyleEmojis | generator/views.py:121-132 | every style has five emoji |
| GeneratorViews.TemplatesFor | generator/views.py:114 | a known style gets its own templates, an unknown one the casual templates |
| GeneratorViews.EmojisFor | generator/views.py:134 | a known style gets its own emoji, an unknown one the three default emoji |
| GeneratorViews.OrFallback | generator/views.py:117-118 | a missing or empty text is replaced by the fallback, any other text is kept |
| GeneratorViews.GenerateContent | generator/views.py:137-153 | returns exactly five captions with ids 1 to 5, all labelled with the style's display name, equal to `Captions` |
| GeneratorViews.KnownStyleInTableOrder | generator/views.py:40-140 | caption i of a known style renders template i with emoji i, so each is used once, in table order |
| GeneratorViews.UnknownStyleFallsBack | generator/views.py:114-134 | an unknown style uses the casual templates and the default emoji, and no error is raised |
| GeneratorViews.EmojiOnlyInFirstCasualTemplate | generator/views.py:40-111 | only the first casual template contains `{emoji}` |
| GeneratorViews.UnknownStyleWritesCasualCaptions | generator/views.py:114-146 | an unknown style produces word for word the casual captions |
| GeneratorViews.CaptionIsFormattedTemplate | generator/views.py:139-146 | each caption is `template.format(event=…, description=…, emoji=…)` of its template |
| GeneratorViews.GeneratorSite.FormValid | generator/views.py:19-29 | the request is stored under a new id with its five captions, and that id goes into the session |
| GeneratorViews.GeneratorSite.ResultsView | generator/views.py:156-175 | redirects when the session has no id or the row is gone; otherwise shows the stored captions, or none |
| GeneratorViews.SubmitThenView | generator/views.py:24-173 | a valid submission followed by the results page shows its five captions |
| ContentModels.ParsePriority | content_generator/models.py:7-11 | a key is accepted exactly when it is high, medium or low |
| ContentModels.ParseWillingness | content_generator/models.py:13-19 | a key is accepted exactly when it is one of the five willingness emoji |
| ContentModels.ParseMood | content_generator/models.py:41-50 | a key is accepted exactly when it is one of the eight mood emoji |
| ContentModels.PriorityKeyRoundTrip | content_generator/models.py:7-11 | every priority's stored key parses back to it |
| ContentModels.WillingnessKeyRoundTrip | content_generator/models.py:13-19 | every willingness's stored key parses back to it |
| ContentModels.MoodKeyRoundTrip | content_generator/models.py:41-50 | every mood's stored key parses back to it |
| ContentModels.NewTask | content_generator/models.py:21-27 | a row built from the model's field rules keeps the given owner, title, description and due date; it needs a 1-200 character title and known choices; priority defaults to medium, willingness to 😐, completed to false |
| ContentModels.NewTaskRoundTrip | content_generator/models.py:21-27 | every valid task row, given back field by field, rebuilds the same row |
| ContentModels.NewEvent | content_generator/models.py:52-56 | an event keeps the given owner, title, content and image; it needs a 1-200 character title, content and a known mood, which defaults to 😄 |
| ContentModels.NewEventRoundTrip | content_generator/models.py:52-56 | every valid event row, given back field by field, rebuilds the same row |
| ContentForms.CleanTitle | content_generator/forms.py:12 | the title is stripped, then must have 1 to 200 characters; blank reports "required", too long reports "too long" |
| ContentForms.CleanChoice | content_generator/forms.py:12 | an absent or empty choice is required even where the model has a default; any other value must be one of the keys |
| ContentForms.TaskForm | content_generator/forms.py:5-29 | valid exactly when the stripped title has 1 to 200 characters and priority and willingness are submitted and known; the row carries the cleaned values, not completed; an invalid form reports every failing field |
| ContentForms.PaddedTitleSaved | content_generator/forms.py:12 | a title typed with whitespace around it is saved without that whitespace |
| ContentForms.BlankTitleRefused | content_generator/forms.py:12 | a title of whitespace only is refused as required |
| ContentForms.ResubmitSavedTask | content_generator/forms.py:5-29 | a saved task, submitted again with its own values, gives back the same row |
| ProductivityRules.Classify | content_generator/views.py:416-423 | each of the four advice cases holds exactly for its priority and willingness combination |
| ProductivityRules.TaskAdviceText | content_generator/views.py:411-429 | the advice starts with the base message of the task's case |
| ProductivityRules.AdviceHasOneBaseMessage | content_generator/views.py:416-424 | the advice starts with exactly one of the four base messages |
| ProductivityRules.AdviceDueSentenceIffDueDate | content_generator/views.py:426-427 | something is added to the base message exactly when the task has a due date, and what is added is the due-date sentence with the formatted date |
| ProductivityRules.CountCompleted | content_generator/views.py:24 | at most the number of tasks |
| ProductivityRules.CountCompletedPriority | content_generator/views.py:391 | at most the tasks of that priority and at most the completed ones |
| ProductivityRules.CountOverdue | content_generator/views.py:26 | overdue tasks are among the pending ones |
| ProductivityRules.PrioritiesPartition | content_generator/views.py:30-33 | the high, medium and low counts add up to the total |
| ProductivityRules.PendingHighPriority | content_generator/views.py:391 | fewer completed than total high-priority tasks exactly when some high-priority task is open |
| ProductivityRules.TierOf | content_generator/views.py:381-388 | each tier holds exactly for its band of completion rate: at least 80, 60, 40, or below |
| ProductivityRules.TierMonotone | content_generator/views.py:381-388 | completing more tasks never lowers the tier |
| ProductivityRules.WorkEvaluation | content_generator/views.py:369-394 | no tasks gives "今日无任务安排。"; otherwise the tier text followed by the hint when high-priority tasks are left; the tiers' bands are stated by TierOf and the hint's condition by EvaluationHintIffOpenHighPriority |
| ProductivityRules.EvaluationHintIffOpenHighPriority | content_generator/views.py:391-392 | the hint is added exactly when a high-priority task of the day is still open |
| ProductivityRules.DecimalString | content_generator/views.py:361-363 | a non-empty string of decimal digits, without a leading zero unless the number is 0 |
| ProductivityRules.DecimalStringValue | content_generator/views.py:361-363 | the digits written for a number denote that number |
| ProductivityRules.SummaryText | content_generator/views.py:348-367 | no tasks gives the fixed relax message, and only then; otherwise the text shows the completed count and the rate, and the second template also the total |
| ProductivityRules.SummaryHoldsCounts | content_generator/views.py:360-364 | each of the three templates contains the completed count and the rate text, and the second also the total |
| ProductivityRules.RoundHalfEven | content_generator/views.py:27 | the nearest integer to the ratio, halves to the even neighbour |
| ProductivityRules.Percent | content_generator/views.py:27 | 0 for an empty whole, otherwise within half a point of the exact percentage |
| ProductivityRules.PercentBounds | content_generator/views.py:36-38 | nothing gives 0, a part of the whole at most 100, the whole exactly 100 |
| ProductivityRules.StatsProperties | content_generator/views.py:23-33 | pending is total minus completed and overdue tasks are pending; the rate is 0 without tasks, at most 100, and 100 when all are done; the priority counts partition the tasks |
| ProductivityRules.PriorityPercents | content_generator/views.py:35-38 | every bar is at most 100 and all are 0 without tasks; each priority whose count is the largest, high, medium or low, gets 100 |
| ProductivityRules.Streak | content_generator/views.py:227-234 | the result is the streak: every day from today back has a summary, the day before them has none |
| ProductivityRules.StreakUnique | content_generator/views.py:227-234 | the streak is determined by the dates and today |
| ProductivityRules.StreakZeroWithoutToday | content_generator/views.py:227-234 | the streak is 0 exactly when today has no summary |
| ProductivityRules.StreakStopsAtGap | content_generator/views.py:227-234 | summaries on today, yesterday and three days ago give a streak of 2 |
| ProductivityRules.CountFrom | content_generator/views.py:222-223 | at most the total number of summaries |
| ProductivityRules.Progress | content_generator/views.py:240-250 | below 100 it is the floored percentage; it is 100 exactly when the count reaches the number of days; 0 with no days |
| ProductivityRules.ProgressFull | content_generator/views.py:240-250 | reaching the number of days gives 100 |
| ProductivityRules.SummaryStatsOf | content_generator/views.py:220-251 | week and month counts are within the total; each progress value is the floored percentage of its period, and 100 exactly when the count reaches 7 or the days of the month |
| ProductivityStore.FindTask | content_generator/views.py:117 | finds the caller's task with that id, or reports that there is none |
| ProductivityStore.TasksCreatedOn | content_generator/views.py:264-267 | exactly the user's tasks created that day: every returned task matches, and every matching task is returned |
| ProductivityStore.TasksOf | content_generator/views.py:19 | exactly the user's tasks: every returned task is theirs, and every task of theirs is returned |
| ProductivityStore.CountAdviceFor | content_generator/views.py:328-332 | zero exactly when no advice row matches the user, type "task" and the task id |
| ProductivityStore.FindAdviceFor | content_generator/views.py:328-332 | the first matching advice row, or none exactly when nothing matches |
| ProductivityStore.AppendFirstAdvice | content_generator/views.py:327-341 | adding a matching row where there was none leaves exactly one match, the new row |
| ProductivityStore.FindSummary | content_generator/views.py:198-205 | finds the row with the (user, date) key, or reports that there is none |
| ProductivityStore.Upsert | content_generator/views.py:198-205 | the new row is present and at most one row is added |
| ProductivityStore.UpsertKeepsUnique | content_generator/models.py:78 | the upsert keeps at most one summary per (user, date) |
| ProductivityStore.UpsertOnlyRowForKey | content_generator/views.py:198-205 | after the upsert the only row with the key holds the new text |
| ProductivityStore.UpsertKeepsOthers | content_generator/views.py:198-205 | rows under other keys are exactly those that were there before |
| ProductivityStore.UpsertIdempotent | content_generator/views.py:278-290 | saving the same summary twice equals saving it once |
| ProductivityStore.Board.AddTask | content_generator/views.py:59-80 | a valid `TaskForm` adds the cleaned task under a fresh id plus one task-advice row for it; an invalid form reports the form's errors and changes nothing |
| ProductivityStore.Board.ToggleCompletion | content_generator/views.py:115-126 | flips `completed` of the caller's task and nothing else; a missing task changes nothing |
| ProductivityStore.Board.UpdateWillingness | content_generator/views.py:433-452 | saves only one of the five willingness keys; a missing task or a body that is not JSON answers the generic failure, an existing task with any other value answers the invalid-willingness error, and neither changes anything |
| ProductivityStore.Board.GetLlmAdvice | content_generator/views.py:320-346 | reuses the single matching advice row, creates one only when none exists, and fails when there are several |
| ProductivityStore.Board.DeleteTask | content_generator/views.py:105-112 | removes the caller's task and leaves the advice rows, which may now point at nothing |
| ProductivityStore.Board.SubmitSummary | content_generator/views.py:189-210 | a parsed date upserts (user, date); a malformed date, or a missing date or summary, changes nothing |
| ProductivityStore.Board.GenerateDailySummary | content_generator/views.py:257-293 | saves under (user, today) the summary and evaluation of the tasks created today |
| ProductivityStore.Board.TaskListStats | content_generator/views.py:15-38 | counts the user's tasks; the completion rate is at most 100 |
| ProductivityStore.ToggleTwice | content_generator/views.py:119-121 | two toggles restore the task table |
| ProductivityStore.AskAdviceTwice | content_generator/views.py:327-341 | asking twice adds at most one advice row, and both answers agree |
| ContentApi.QualityScore | content_generator/api.py:207 | every score lies in 80..100 and is 100 exactly from the 21st text on |
| ContentApi.QualityScoreMonotone | content_generator/api.py:261 | later texts never score lower |
| ContentApi.QualityScoreDistinctBelowTwenty | content_generator/api.py:207 | the first twenty texts get strictly increasing scores |
| ContentApi.NewContents | content_generator/api.py:203-213 | one new row per text under consecutive fresh ids, holding the text and its quality score, not favourite |
| ContentApi.ChildIds | content_generator/api.py:195 | exactly the contents that belong to the request |
| ContentApi.ReplaceChildrenExact | content_generator/api.py:191-217 | after regeneration the request's contents are exactly the new rows in text order, and every other request keeps its contents |
| ContentApi.ContentStore.Get | content_generator/api.py:25-144 | unknown id gives 404; a signed-in caller who is neither owner nor staff gets 403; anonymous callers may read one request but not list; staff list all, members their own |
| ContentApi.ContentStore.Post | content_generator/api.py:146-305 | 429 comes before everything; regeneration needs the signed-in owner (staff too) and replaces the contents; creation refuses non-JSON or invalid forms with 400 and links the user only if signed in; the request ends completed, or failed if generation raised |
| ContentApi.ContentStore.ToggleFavorite | content_generator/api.py:321-372 | anonymous callers get 403 before the lookup, a missing content 404, a non-owner 403; otherwise the flag flips and the new value is returned |
| ContentApi.ToggleFavoriteTwice | content_generator/api.py:352-360 | two toggles restore the contents and give opposite answers |
| ContentApi.RateLimitedPost | content_generator/api.py:165-170 | a rate-limited call answers 429 and touches no row |
| ContentApi.RegenerateReplaces | content_generator/api.py:190-217 | a successful regeneration leaves the request completed with exactly the new texts as its contents |
| Accounts.CheckRegistration | vanity_project/views.py:20-42 | each refusal holds exactly when the earlier checks pass and its own fails: wrong stripped name, empty password, mismatch, existing user |
| Accounts.PaddedNameAccepted | vanity_project/views.py:21-26 | whitespace typed around the required name is ignored |
| Accounts.Home | vanity_project/views.py:7-14 | signed-in users are redirected to the task list, everyone else sees the welcome page |
| Accounts.UserDirectory.Register | vanity_project/views.py:16-53 | a GET shows the form; any refusal changes nothing; success adds exactly one account, the required name, to whatever accounts exist, signs it in and redirects to the task list |
| Accounts.RegisterTwice | vanity_project/views.py:39-49 | whatever other accounts exist, once the required account is created a second registration is refused with "user exists" and adds nothing |

## Left out

- Django itself: the ORM, messages, templates, sessions, `login_required` redirects, CSRF
  and `require_http_methods`. Tables are fields of a class. Pages and JSON answers are
  outcome values.
- The `Paginator` of the API list (content_generator/api.py:100-126): the model returns
  the set of visible request ids, and does not model `page`/`page_size` parsing errors.
- `check_api_access` always returns true, so its 403 branch is never taken and is not
  modelled.
- content_generator/api.py is not wired into the site: neither content_generator/urls.py
  nor vanity_project/urls.py routes to it. It imports `ContentGenerationRequest` and
  `GeneratedContent` from the app's models, `ContentGenerationRequestForm` from its forms,
  `check_rate_limit` and `get_client_ip` from its views (lines 11-13), and
  `generate_content_with_ai` (lines 198 and 252); none of the six is defined there, so the
  module fails at import. `ContentApi` models its logic assuming these names exist: the
  rate limiter's verdict and the generator's output are parameters (a boolean; the list of
  texts, or None when generation raises), and the two tables' fields are taken from how
  api.py uses them. The request form is not modelled.
- Errors of `bulk_create`, `create_user` and other database calls, and transactions and
  concurrency, are not modelled.
- Dates and clocks: `strptime`, `timezone.now`, `strftime` and the calendar arithmetic of
  `week_start`, `month_start` and `days_in_month` are parameters or integer day numbers.
- `random.choice` is an index parameter (`pick`). The `%.1f` rendering of the completion
  rate is a string parameter.
- ProductivityRules.Percent: rounds the exact ratio half to even. Python rounds the float
  `part / whole * 100`. At exact .5 ties that float can fall just below the tie: 23 of 40
  gives 57 in Python and 58 in the model.
- ProductivityRules.TierOf: compares the exact ratio with 80, 60 and 40. IEEE rounding of
  the float rate is not modelled.
- ProductivityRules.Progress: the floor of the exact ratio stands for `int()` of the float.
- Text.Lower: lower-cases ASCII letters only. Python's full Unicode case mapping is not
  modelled.
- CaptionTemplates.Format: covers only the three named fields and doubled braces.
  Positional fields, attribute access, conversions and format specs are reported as
  failures rather than interpreted. No template uses them.
- GeneratorModels.Extension: checks the uploaded file's name only. The image content
  check of `ImageField` is not modelled.
- The event-sharing text of `generate_content_with_llm`, the form handlers `edit_task` and
  `add_event`, and the read-only `event_list` are outside the modelled core. The
  `EventForm` they use is not modelled.
- GeneratorModels.Validate: empty optional texts (event description, additional notes)
  are kept as the empty string after stripping; whether a given Django version stores
  None instead is not modelled.
- ContentForms.TaskForm: the due date arrives already parsed, so a malformed date is not
  reported. The description is stripped and kept as text, even when empty.
- Event images and due dates are carried as given. Their widget and format validation is
  not modelled.

=== FILE: accounts.dfy ===
/**
  The site's own pages (vanity_project/views.py): the home redirect and a registration
  form that admits exactly one account name.
*/
module Accounts {
  import opened Wrappers
  import opened Text

  /** The only user name registration accepts. */
  const RequiredUsername := "罗臻的仆从"

  /** The refusals of `register`, in the order they are tested. */
  datatype RegistrationError = WrongUsername | EmptyPassword | PasswordMismatch | UserExists

  /**
    The guard chain of `register`: the stripped name must be the required one, the
    password non-empty and equal to its confirmation, and the name not yet taken. Only the
    first failing test is reported.
  */
  function CheckRegistration(username: string, password: string, confirm: string, existing: set<string>)
    : (r: Option<RegistrationError>)
    ensures r == Some(WrongUsername) <==> Strip(username) != RequiredUsername
    ensures r == Some(EmptyPassword) <==> Strip(username) == RequiredUsername && password == []
    ensures r == Some(PasswordMismatch) <==>
      Strip(username) == RequiredUsername && password != [] && password != confirm
    ensures r == Some(UserExists) <==>
      Strip(username) == RequiredUsername && password != [] && password == confirm && RequiredUsername in existing
    ensures r.None? <==>
      Strip(username) == RequiredUsername && password != [] && password == confirm && RequiredUsername !in existing
  {
    var name := Strip(username);
    if name != RequiredUsername then Some(WrongUsername)
    else if password == [] then Some(EmptyPassword)
    else if password != confirm then Some(PasswordMismatch)
    else if name in existing then Some(UserExists)
    else None
  }

  /** Whitespace typed around the required name is ignored. */
  lemma PaddedNameAccepted(before: string, after: string)
    requires AllSpace(before) && AllSpace(after)
    ensures Strip(before + RequiredUsername + after) == RequiredUsername
  {
    var s := before + RequiredUsername + after;
    assert s[..|before|] == before;
    assert s[|before|..|before| + |RequiredUsername|] == RequiredUsername;
    assert s[|before| + |RequiredUsername|..] == after;
    assert !IsSpace(RequiredUsername[0]) && !IsSpace(RequiredUsername[|RequiredUsername| - 1]);
    StripOfPadded(s, RequiredUsername, |before|);
  }

  /** What `register` answers. */
  datatype RegisterPage = ShowForm(error: Option<RegistrationError>) | RedirectToTaskList

  /** What `home` answers. */
  datatype HomePage = TaskListRedirect | WelcomePage

  /** `home`: signed-in users go to their task list, everyone else sees the welcome page. */
  function Home(authenticated: bool): (r: HomePage)
    ensures r == TaskListRedirect <==> authenticated
  {
    if authenticated then TaskListRedirect else WelcomePage
  }

  /**
    The site's whole user table (name to password), shared with accounts made elsewhere,
    such as the admin account, and the name signed in on this session.
  */
  class UserDirectory {
    var accounts: map<string, string>
    var signedIn: Option<string>

    constructor()
      ensures accounts == map[] && signedIn == None
    {
      accounts := map[];
      signedIn := None;
    }

    /**
      `register`. A GET shows the empty form. A POST reads the fields ('' when left out),
      runs the guard chain, and on success creates the account, signs it in and redirects;
      any refusal shows the form with the first error and changes nothing.
    */
    method Register(isPost: bool, username: Option<string>, password: Option<string>, confirm: Option<string>)
      returns (page: RegisterPage)
      modifies this
      ensures !isPost ==> page == ShowForm(None)
      ensures isPost ==>
        var error := CheckRegistration(username.GetOr(""), password.GetOr(""), confirm.GetOr(""), old(accounts).Keys);
        && (error.Some? ==> page == ShowForm(error))
        && (error.None? <==> page == RedirectToTaskList)
        && (error.None? ==> RequiredUsername !in old(accounts)
                             && accounts == old(accounts)[RequiredUsername := password.GetOr("")]
                             && signedIn == Some(RequiredUsername))
      ensures page != RedirectToTaskList ==> accounts == old(accounts) && signedIn == old(signedIn)
    {
      if !isPost {
        return ShowForm(None);
      }
      var name := Strip(username.GetOr(""));
      var error := CheckRegistration(username.GetOr(""), password.GetOr(""), confirm.GetOr(""), accounts.Keys);
      if error.Some? {
        return ShowForm(error);
      }
      accounts := accounts[name := password.GetOr("")];
      signedIn := Some(name);
      page := RedirectToTaskList;
    }
  }

  /**
    Whatever other accounts exist, once the required account is created a second
    registration is refused with "user exists" and adds no account.
  */
  method RegisterTwice(directory: UserDirectory, username: string, password: string)
    returns (first: RegisterPage, second: RegisterPage)
    requires RequiredUsername !in directory.accounts
    modifies directory
    ensures first == RedirectToTaskList <==> CheckRegistration(username, password, password, old(directory.accounts).Keys).None?
    ensures first == RedirectToTaskList ==>
      second == ShowForm(Some(UserExists)) && directory.accounts == old(directory.accounts)[RequiredUsername := password]
    ensures first != RedirectToTaskList ==> directory.accounts == old(directory.accounts)
  {
    first := directory.Register(true, Some(username), Some(password), Some(password));
    second := directory.Register(true, Some(username), Some(password), Some(password));
  }
}

=== FILE: caption_templates.dfy ===
/**
  Caption templates as sequences of literal text and placeholder tokens, the rendering
  used by the caption generator, and, as an independent reference, Python's
  `str.format` restricted to the three named fields the templates use.
*/
module CaptionTemplates {
  import opened Wrappers

  datatype Token = Lit(text: string) | EventSlot | DescriptionSlot | EmojiSlot

  type Template = seq<Token>

  /** The text a token stands for once its placeholders are filled. */
  function RenderToken(t: Token, event: string, description: string, emoji: string): string {
    match t
    case Lit(text) => text
    case EventSlot => event
    case DescriptionSlot => description
    case EmojiSlot => emoji
  }

  /** The template with every placeholder replaced and every literal kept. */
  function Render(t: Template, event: string, description: string, emoji: string): string {
    if t == [] then [] else RenderToken(t[0], event, description, emoji) + Render(t[1..], event, description, emoji)
  }

  /** Literal braces in source form are written doubled. */
  function Escape(text: string): string {
    if text == [] then [] else EscapeChar(text[0]) + Escape(text[1..])
  }

  function EscapeChar(c: char): string {
    if c == '{' then "{{" else if c == '}' then "}}" else [c]
  }

  /** The template as the format string the source writes. */
  function Print(t: Template): string {
    if t == [] then []
    else
      (match t[0]
       case Lit(text) => Escape(text)
       case EventSlot => "{event}"
       case DescriptionSlot => "{description}"
       case EmojiSlot => "{emoji}")
      + Print(t[1..])
  }

  function Prepend(prefix: string, rest: Option<string>): Option<string> {
    match rest
    case Some(s) => Some(prefix + s)
    case None => None
  }

  predicate StartsWith(s: string, prefix: string) {
    |prefix| <= |s| && s[..|prefix|] == prefix
  }

  /**
    `s.format(event=..., description=..., emoji=...)`: the three named fields are
    substituted, `{{` and `}}` stand for single braces, and every other use of a brace is
    an error (None), as a field Python does not know or a single `}` would be.
  */
  function Format(s: string, event: string, description: string, emoji: string): Option<string>
    decreases |s|
  {
    if s == [] then Some([])
    else if s[0] == '{' then
      if StartsWith(s, "{{") then Prepend("{", Format(s[2..], event, description, emoji))
      else if StartsWith(s, "{event}") then Prepend(event, Format(s[7..], event, description, emoji))
      else if StartsWith(s, "{description}") then Prepend(description, Format(s[13..], event, description, emoji))
      else if StartsWith(s, "{emoji}") then Prepend(emoji, Format(s[7..], event, description, emoji))
      else None
    else if s[0] == '}' then
      if StartsWith(s, "}}") then Prepend("}", Format(s[2..], event, description, emoji)) else None
    else Prepend([s[0]], Format(s[1..], event, description, emoji))
  }

  lemma PrependAssoc(a: string, b: string, o: Option<string>)
    ensures Prepend(a, Prepend(b, o)) == Prepend(a + b, o)
  {
    if o.Some? {
      assert a + (b + o.value) == (a + b) + o.value;
    }
  }

  /** A doubled `{` stands for one `{`. */
  lemma FormatOpenBrace(tail: string, event: string, description: string, emoji: string)
    ensures Format("{{" + tail, event, description, emoji) == Prepend("{", Format(tail, event, description, emoji))
  {
    var s := "{{" + tail;
    assert StartsWith(s, "{{") && s[2..] == tail;
  }

  /** A doubled `}` stands for one `}`. */
  lemma FormatCloseBrace(tail: string, event: string, description: string, emoji: string)
    ensures Format("}}" + tail, event, description, emoji) == Prepend("}", Format(tail, event, description, emoji))
  {
    var s := "}}" + tail;
    assert s[0] == '}' && StartsWith(s, "}}") && s[2..] == tail;
  }

  /** Any character other than a brace is copied. */
  lemma FormatPlain(c: char, tail: string, event: string, description: string, emoji: string)
    requires c != '{' && c != '}'
    ensures Format([c] + tail, event, description, emoji) == Prepend([c], Format(tail, event, description, emoji))
  {
    var s := [c] + tail;
    assert s[0] == c && s[1..] == tail;
  }

  /** Formatting escaped literal text gives the text back and continues with the rest. */
  lemma {:induction false} FormatEscape(text: string, rest: string, event: string, description: string, emoji: string)
    ensures Format(Escape(text) + rest, event, description, emoji)
         == Prepend(text, Format(rest, event, description, emoji))
    decreases |text|
  {
    if text == [] {
      assert Escape(text) + rest == rest;
      var f := Format(rest, event, description, emoji);
      if f.Some? {
        assert text + f.value == f.value;
      }
    } else {
      var c := text[0];
      var tail := Escape(text[1..]) + rest;
      assert Escape(text) + rest == EscapeChar(c) + tail;
      FormatEscapeChar(c, tail, event, description, emoji);
      FormatEscape(text[1..], rest, event, description, emoji);
      PrependAssoc([c], text[1..], Format(rest, event, description, emoji));
      assert [c] + text[1..] == text;
    }
  }

  /** One escaped character formats back to itself. */
  lemma FormatEscapeChar(c: char, tail: string, event: string, description: string, emoji: string)
    ensures Format(EscapeChar(c) + tail, event, description, emoji) == Prepend([c], Format(tail, event, description, emoji))
  {
    if c == '{' {
      FormatOpenBrace(tail, event, description, emoji);
    } else if c == '}' {
      FormatCloseBrace(tail, event, description, emoji);
    } else {
      FormatPlain(c, tail, event, description, emoji);
    }
  }

  lemma DiffersAt(s: string, prefix: string, i: nat)
    requires i < |s| && i < |prefix| && s[i] != prefix[i]
    ensures !StartsWith(s, prefix)
  {
  }

  /**
    The reference: formatting the source form of a template never fails, and yields
    exactly its rendering.
  */
  lemma {:induction false} FormatPrint(t: Template, event: string, description: string, emoji: string)
    ensures Format(Print(t), event, description, emoji) == Some(Render(t, event, description, emoji))
  {
    if t == [] {
    } else {
      var rest := Print(t[1..]);
      FormatPrint(t[1..], event, description, emoji);
      var s := Print(t);
      match t[0]
      case Lit(text) =>
        FormatEscape(text, rest, event, description, emoji);
      case EventSlot =>
        assert s == "{event}" + rest;
        DiffersAt(s, "{{", 1);
        assert StartsWith(s, "{event}") && s[7..] == rest;
      case DescriptionSlot =>
        assert s == "{description}" + rest;
        DiffersAt(s, "{{", 1);
        DiffersAt(s, "{event}", 1);
        assert StartsWith(s, "{description}");
        assert s[13..] == rest;
      case EmojiSlot =>
        assert s == "{emoji}" + rest;
        DiffersAt(s, "{{", 1);
        DiffersAt(s, "{event}", 2);
        DiffersAt(s, "{description}", 1);
        assert StartsWith(s, "{emoji}");
        assert s[7..] == rest;
    }
  }

  /** Rendering a concatenation renders each part. */
  lemma {:induction false} RenderAppend(a: Template, b: Template, event: string, description: string, emoji: string)
    ensures Render(a + b, event, description, emoji) == Render(a, event, description, emoji) + Render(b, event, description, emoji)
  {
    if a == [] {
      assert a + b == b;
    } else {
      assert (a + b)[1..] == a[1..] + b;
      RenderAppend(a[1..], b, event, description, emoji);
    }
  }

  /** A template with no `{emoji}` placeholder renders the same whatever emoji is given. */
  lemma {:induction false} RenderIgnoresEmoji(t: Template, event: string, description: string, emoji1: string, emoji2: string)
    requires EmojiSlot !in t
    ensures Render(t, event, description, emoji1) == Render(t, event, description, emoji2)
  {
    if t != [] {
      assert t[0] in t;
      RenderIgnoresEmoji(t[1..], event, description, emoji1, emoji2);
    }
  }

  /** Every literal of the template survives rendering, in place, in template order. */
  lemma {:induction false} RenderKeepsLiteral(t: Template, k: nat, event: string, description: string, emoji: string)
    requires k < |t| && t[k].Lit?
    ensures Render(t, event, description, emoji)
         == Render(t[..k], event, description, emoji) + t[k].text + Render(t[k + 1..], event, description, emoji)
  {
    assert t == t[..k] + t[k..];
    RenderAppend(t[..k], t[k..], event, description, emoji);
    assert t[k..][1..] == t[k + 1..];
  }
}

=== FILE: content_api.dfy ===
/**
  The JSON API over content-generation requests (content_generator/api.py): who may read,
  list, regenerate and favourite, how a request's status moves, how the generated texts
  replace a request's old contents, and the quality score of each text.
*/
module ContentApi {
  import opened Wrappers
  import opened ContentModels

  /** The user behind an API call. */
  datatype Caller = Anonymous | Member(id: UserId, isStaff: bool)

  /** The status values the API writes. */
  datatype Status = Processing | Completed | Failed {
    function Key(): string {
      match this
      case Processing => "processing"
      case Completed => "completed"
      case Failed => "failed"
    }
  }

  /** The fields the request form supplies. */
  datatype RequestFields = RequestFields(stylePreference: string, language: string, audienceType: string)

  /** A content-generation request; `owner` is None when an anonymous caller created it. */
  datatype GenRequest = GenRequest(owner: Option<UserId>, fields: RequestFields, status: Status)

  /** A generated text of a request. */
  datatype GenContent = GenContent(requestId: nat, content: string, qualityScore: nat, isFavorite: bool)

  /**
    The POST body of a create call: not JSON, or JSON whose form validation gave the
    fields (None when the form is invalid).
  */
  datatype CreateBody = NotJson | JsonBody(form: Option<RequestFields>)

  datatype ApiResponse =
    | RequestDetail(id: nat, request: GenRequest, contentIds: set<nat>)
    | RequestList(ids: set<nat>)
    | Created(createdId: nat)
    | Regenerated(regeneratedId: nat)
    | FavoriteToggled(isFavorite: bool)
    | BadRequest
    | Forbidden
    | NotFound
    | TooManyRequests
    | ServerError
  {
    /** The HTTP status code of the response. */
    function Code(): nat {
      match this
      case RequestDetail(_, _, _) => 200
      case RequestList(_) => 200
      case Created(_) => 200
      case Regenerated(_) => 200
      case FavoriteToggled(_) => 200
      case BadRequest => 400
      case Forbidden => 403
      case NotFound => 404
      case TooManyRequests => 429
      case ServerError => 500
    }
  }

  /** The quality score of the `i`-th generated text (counting from 0). */
  function QualityScore(i: nat): (s: nat)
    ensures 80 <= s <= 100
    ensures s == 100 <==> i >= 20
  {
    if i < 20 then 80 + i else 100
  }

  /** Later texts never score lower. */
  lemma QualityScoreMonotone(i: nat, j: nat)
    requires i <= j
    ensures QualityScore(i) <= QualityScore(j)
  {
  }

  /** Distinct positions among the first twenty get distinct scores. */
  lemma QualityScoreDistinctBelowTwenty(i: nat, j: nat)
    requires i < j < 20
    ensures QualityScore(i) < QualityScore(j)
  {
  }

  /** The rows `bulk_create` adds for `texts`, under the ids `next`, `next + 1`, …. */
  function NewContents(next: nat, requestId: nat, texts: seq<string>): (m: map<nat, GenContent>)
    ensures forall k: nat :: k in m <==> next <= k < next + |texts|
    ensures forall k :: k in m ==>
      m[k] == GenContent(requestId, texts[k - next], QualityScore(k - next), false)
  {
    if texts == [] then map[]
    else
      var last := |texts| - 1;
      NewContents(next, requestId, texts[..last])[next + last := GenContent(requestId, texts[last], QualityScore(last), false)]
  }

  /** The ids of the contents of `requestId`. */
  function ChildIds(contents: map<nat, GenContent>, requestId: nat): (ids: set<nat>)
    ensures ids <= contents.Keys
    ensures forall k :: k in ids <==> k in contents && contents[k].requestId == requestId
  {
    set k | k in contents && contents[k].requestId == requestId
  }

  /** Delete the contents of `requestId`, then add one row per new text. */
  function ReplaceChildren(contents: map<nat, GenContent>, requestId: nat, next: nat, texts: seq<string>): map<nat, GenContent> {
    (contents - ChildIds(contents, requestId)) + NewContents(next, requestId, texts)
  }

  /**
    Regeneration replaces the request's contents wholesale: afterwards its contents are
    exactly the new rows, in text order, and every other request keeps its contents.
  */
  lemma ReplaceChildrenExact(contents: map<nat, GenContent>, requestId: nat, next: nat, texts: seq<string>)
    requires forall k :: k in contents ==> k < next
    ensures var r := ReplaceChildren(contents, requestId, next, texts);
      && ChildIds(r, requestId) == NewContents(next, requestId, texts).Keys
      && (forall i :: 0 <= i < |texts| ==> next + i in r && r[next + i].content == texts[i])
      && (forall k :: k in contents && contents[k].requestId != requestId ==> k in r && r[k] == contents[k])
      && (forall k :: k in r && r[k].requestId != requestId ==> k in contents && r[k] == contents[k])
  {
    var r := ReplaceChildren(contents, requestId, next, texts);
    var added := NewContents(next, requestId, texts);
    var rest := contents - ChildIds(contents, requestId);
    assert forall j :: j in rest ==> rest[j] == contents[j] && contents[j].requestId != requestId;
    assert forall j :: j in r && j !in added ==> j in rest && r[j] == rest[j];
    forall i | 0 <= i < |texts|
      ensures next + i in r && r[next + i].content == texts[i]
    {
      assert next + i in added;
    }
  }

  /** Who may read one request by id: anonymous callers, staff and the owner. */
  predicate MayView(caller: Caller, request: GenRequest) {
    caller.Anonymous? || caller.isStaff || request.owner == Some(caller.id)
  }

  /** Whose requests appear in a member's list: all for staff, their own otherwise. */
  predicate Listed(caller: Caller, request: GenRequest)
    requires caller.Member?
  {
    caller.isStaff || request.owner == Some(caller.id)
  }

  /** The content requests and their generated texts. */
  class ContentStore {
    var requests: map<nat, GenRequest>
    var contents: map<nat, GenContent>
    var nextRequestId: nat
    var nextContentId: nat

    ghost predicate Valid()
      reads this
    {
      && nextRequestId > 0 && nextContentId > 0
      && (forall id :: id in requests ==> 0 < id < nextRequestId)
      && (forall k :: k in contents ==> 0 < k < nextContentId && contents[k].requestId in requests)
    }

    constructor()
      ensures Valid()
      ensures requests == map[] && contents == map[]
    {
      requests := map[];
      contents := map[];
      nextRequestId := 1;
      nextContentId := 1;
    }

    /**
      `ContentGenerationAPI.get`. `requestId` 0 stands for no id (the list); an unknown id
      is 404 before any access test; anonymous callers are not blocked from a single
      request but may not list.
    */
    function Get(caller: Caller, requestId: nat): (r: ApiResponse)
      reads this
      ensures requestId != 0 && requestId !in requests ==> r == NotFound
      ensures requestId != 0 && requestId in requests ==>
        (r.RequestDetail? <==> MayView(caller, requests[requestId]))
        && (r.RequestDetail? ==> r.id == requestId && r.request == requests[requestId]
                                 && r.contentIds == ChildIds(contents, requestId))
        && (!r.RequestDetail? ==> r == Forbidden)
      ensures requestId == 0 ==> (r == Forbidden <==> caller.Anonymous?)
      ensures requestId == 0 && caller.Member? ==>
        r.RequestList? && forall id :: id in r.ids <==> id in requests && Listed(caller, requests[id])
    {
      if requestId != 0 then
        if requestId !in requests then NotFound
        else
          var request := requests[requestId];
          if caller.Member? && request.owner != Some(caller.id) && !caller.isStaff then Forbidden
          else RequestDetail(requestId, request, ChildIds(contents, requestId))
      else
        match caller
        case Anonymous => Forbidden
        case Member(_, isStaff) =>
          if isStaff then RequestList(requests.Keys)
          else RequestList(set id | id in requests && requests[id].owner == Some(caller.id))
    }

    /**
      `ContentGenerationAPI.post`. `allowed` is the verdict of the rate limiter, `gen` the
      texts the generator returned (None when it raised). `requestId` 0 creates a request,
      any other value regenerates that one.
    */
    method Post(caller: Caller, requestId: nat, allowed: bool, body: CreateBody, gen: Option<seq<string>>)
      returns (r: ApiResponse)
      requires Valid()
      modifies this
      ensures Valid()
      ensures r.Code() != 200 && r != ServerError ==>
        requests == old(requests) && contents == old(contents)
        && nextRequestId == old(nextRequestId) && nextContentId == old(nextContentId)
      ensures !allowed ==> r == TooManyRequests
      // regenerate
      ensures allowed && requestId != 0 && requestId !in old(requests) ==> r == NotFound
      ensures (allowed && requestId != 0 && requestId in old(requests)
               && (caller.Anonymous? || old(requests)[requestId].owner != Some(caller.id))) ==> r == Forbidden
      ensures (allowed && requestId != 0 && requestId in old(requests) && caller.Member?
               && old(requests)[requestId].owner == Some(caller.id)) ==>
        var texts := gen.GetOr([]);
        && requests == old(requests)[requestId := old(requests)[requestId].(status := if gen.Some? then Completed else Failed)]
        && contents == ReplaceChildren(old(contents), requestId, old(nextContentId), texts)
        && nextContentId == old(nextContentId) + |texts|
        && nextRequestId == old(nextRequestId)
        && r == (if gen.Some? then Regenerated(requestId) else ServerError)
      // create
      ensures allowed && requestId == 0 && (body.NotJson? || body.form.None?) ==> r == BadRequest
      ensures allowed && requestId == 0 && body.JsonBody? && body.form.Some? ==>
        var id := old(nextRequestId);
        var texts := gen.GetOr([]);
        var owner := if caller.Member? then Some(caller.id) else None;
        && requests == old(requests)[id := GenRequest(owner, body.form.value, if gen.Some? then Completed else Failed)]
        && contents == old(contents) + NewContents(old(nextContentId), id, texts)
        && nextRequestId == id + 1
        && nextContentId == old(nextContentId) + |texts|
        && r == (if gen.Some? then Created(id) else ServerError)
    {
      if !allowed {
        return TooManyRequests;
      }
      var id: nat;
      if requestId != 0 {
        if requestId !in requests {
          return NotFound;
        }
        if caller.Anonymous? || requests[requestId].owner != Some(caller.id) {
          return Forbidden;
        }
        id := requestId;
        requests := requests[id := requests[id].(status := Processing)];
        contents := contents - ChildIds(contents, id);
      } else {
        if body.NotJson? || body.form.None? {
          return BadRequest;
        }
        id := nextRequestId;
        var owner := if caller.Member? then Some(caller.id) else None;
        requests := requests[id := GenRequest(owner, body.form.value, Processing)];
        nextRequestId := nextRequestId + 1;
      }
      match gen
      case None =>
        requests := requests[id := requests[id].(status := Failed)];
        r := ServerError;
      case Some(texts) =>
        contents := contents + NewContents(nextContentId, id, texts);
        nextContentId := nextContentId + |texts|;
        requests := requests[id := requests[id].(status := Completed)];
        r := if requestId != 0 then Regenerated(id) else Created(id);
    }

    /**
      `toggle_favorite_api`: anonymous callers are refused before the lookup; only the
      owner of the content's request may flip `is_favorite`, and the answer is the new value.
    */
    method ToggleFavorite(caller: Caller, contentId: nat) returns (r: ApiResponse)
      requires Valid()
      modifies this
      ensures Valid()
      ensures requests == old(requests) && nextRequestId == old(nextRequestId) && nextContentId == old(nextContentId)
      ensures caller.Anonymous? ==> r == Forbidden
      ensures caller.Member? && contentId !in old(contents) ==> r == NotFound
      ensures (caller.Member? && contentId in old(contents)
               && old(requests)[old(contents)[contentId].requestId].owner != Some(caller.id)) ==> r == Forbidden
      ensures !r.FavoriteToggled? ==> contents == old(contents)
      ensures r.FavoriteToggled? <==>
        caller.Member? && contentId in old(contents)
        && old(requests)[old(contents)[contentId].requestId].owner == Some(caller.id)
      ensures r.FavoriteToggled? ==>
        var c := old(contents)[contentId];
        && r.isFavorite == !c.isFavorite
        && contents == old(contents)[contentId := c.(isFavorite := !c.isFavorite)]
    {
      if caller.Anonymous? {
        return Forbidden;
      }
      if contentId !in contents {
        return NotFound;
      }
      var c := contents[contentId];
      if requests[c.requestId].owner != Some(caller.id) {
        return Forbidden;
      }
      contents := contents[contentId := c.(isFavorite := !c.isFavorite)];
      r := FavoriteToggled(!c.isFavorite);
    }
  }

  /** Two favourite toggles by the same caller restore the contents and give opposite answers. */
  method ToggleFavoriteTwice(store: ContentStore, caller: Caller, contentId: nat)
    returns (first: ApiResponse, second: ApiResponse)
    requires store.Valid()
    modifies store
    ensures store.Valid()
    ensures store.contents == old(store.contents)
    ensures first.FavoriteToggled? <==> second.FavoriteToggled?
    ensures first.FavoriteToggled? ==> second.isFavorite == !first.isFavorite
  {
    first := store.ToggleFavorite(caller, contentId);
    second := store.ToggleFavorite(caller, contentId);
  }

  /** A rate-limited call answers 429 and touches no row, whatever else it carries. */
  method RateLimitedPost(store: ContentStore, caller: Caller, requestId: nat, body: CreateBody, gen: Option<seq<string>>)
    returns (r: ApiResponse)
    requires store.Valid()
    modifies store
    ensures r == TooManyRequests && r.Code() == 429
    ensures store.requests == old(store.requests) && store.contents == old(store.contents)
  {
    r := store.Post(caller, requestId, false, body, gen);
  }

  /** A successful regeneration leaves the request completed with exactly the new texts as contents. */
  method RegenerateReplaces(store: ContentStore, owner: UserId, isStaff: bool, requestId: nat, texts: seq<string>)
    returns (r: ApiResponse)
    requires store.Valid() && requestId in store.requests && store.requests[requestId].owner == Some(owner)
    requires requestId != 0
    modifies store
    ensures r == Regenerated(requestId)
    ensures requestId in store.requests && store.requests[requestId].status == Completed
    ensures ChildIds(store.contents, requestId) == NewContents(old(store.nextContentId), requestId, texts).Keys
    ensures forall k :: k in old(store.contents) && old(store.contents)[k].requestId != requestId ==>
      k in store.contents && store.contents[k] == old(store.contents)[k]
  {
    ReplaceChildrenExact(store.contents, requestId, store.nextContentId, texts);
    r := store.Post(Member(owner, isStaff), requestId, true, NotJson, Some(texts));
  }
}

=== FILE: content_forms.dfy ===
/**
  The task form of the productivity app (content_generator/forms.py): a ModelForm over
  title, description, priority, willingness and due date. Its fields are cleaned the way
  Django's form fields clean them: text is stripped before it is checked, and a model field
  that may not be blank is a required form field even when the model gives it a default.
*/
module ContentForms {
  import opened Wrappers
  import opened Text
  import opened ContentModels

  datatype TaskField = TitleField | PriorityField | WillingnessField

  datatype FormError = Required(field: TaskField) | TooLong(field: TaskField) | InvalidChoice(field: TaskField)

  /** The title's form field: stripped, then required, then at most 200 characters. */
  function CleanTitle(raw: Option<string>): (r: Result<string, FormError>)
    ensures r.Success? <==> 0 < |Strip(raw.GetOr(""))| <= TitleMaxLength
    ensures r.Success? ==> r.value == Strip(raw.GetOr(""))
    ensures r.Failure? ==> r.error == (if Strip(raw.GetOr("")) == [] then Required(TitleField) else TooLong(TitleField))
  {
    var title := Strip(raw.GetOr(""));
    if title == [] then Failure(Required(TitleField))
    else if |title| > TitleMaxLength then Failure(TooLong(TitleField))
    else Success(title)
  }

  /** A choice field: absent or empty is required, then the value must be one of the keys. */
  function CleanChoice<T>(raw: Option<string>, parse: string -> Option<T>, field: TaskField): (r: Result<T, FormError>)
    ensures raw.None? || raw.value == [] ==> r == Failure(Required(field))
    ensures raw.Some? && raw.value != [] ==> (r.Success? <==> parse(raw.value).Some?)
    ensures r.Success? ==> raw.Some? && parse(raw.value) == Some(r.value)
    ensures r.Failure? && raw.Some? && raw.value != [] ==> r.error == InvalidChoice(field)
  {
    if raw.None? || raw.value == [] then Failure(Required(field))
    else
      match parse(raw.value)
      case None => Failure(InvalidChoice(field))
      case Some(v) => Success(v)
  }

  function ErrorOf<T>(r: Result<T, FormError>): seq<FormError> {
    if r.Failure? then [r.error] else []
  }

  /**
    `TaskForm(request.POST)` followed by `form.save(commit=False)` with the owner set: the
    form is valid exactly when the stripped title has 1 to 200 characters and priority and
    willingness are both submitted and known; the row carries the cleaned values and starts
    not completed. An invalid form lists the error of every failing field.
  */
  function TaskForm(owner: UserId, input: TaskInput, today: Day): (r: Result<Task, seq<FormError>>)
    ensures r.Success? <==>
      && 0 < |Strip(input.title.GetOr(""))| <= TitleMaxLength
      && input.priority.Some? && ParsePriority(input.priority.value).Some?
      && input.willingness.Some? && ParseWillingness(input.willingness.value).Some?
    ensures r.Success? ==>
      && r.value.owner == owner
      && r.value.title == Strip(input.title.GetOr(""))
      && r.value.description == Some(Strip(input.description.GetOr("")))
      && r.value.priority.Key() == input.priority.value
      && r.value.willingness.Key() == input.willingness.value
      && r.value.dueDate == input.dueDate
      && !r.value.completed
      && r.value.createdDay == today
    ensures r.Failure? ==> r.error != []
    ensures r.Failure? && Strip(input.title.GetOr("")) == [] ==> Required(TitleField) in r.error
    ensures r.Failure? && |Strip(input.title.GetOr(""))| > TitleMaxLength ==> TooLong(TitleField) in r.error
    ensures r.Failure? && (input.priority.None? || input.priority.value == []) ==> Required(PriorityField) in r.error
    ensures r.Failure? && (input.willingness.None? || input.willingness.value == []) ==> Required(WillingnessField) in r.error
  {
    var title := CleanTitle(input.title);
    var priority := CleanChoice(input.priority, ParsePriority, PriorityField);
    var willingness := CleanChoice(input.willingness, ParseWillingness, WillingnessField);
    if title.Success? && priority.Success? && willingness.Success? then
      Success(Task(owner, title.value, Some(Strip(input.description.GetOr(""))), priority.value, willingness.value,
                   input.dueDate, false, today))
    else
      Failure(ErrorOf(title) + ErrorOf(priority) + ErrorOf(willingness))
  }

  /** Whitespace typed around a title is dropped before the row is saved. */
  lemma PaddedTitleSaved(owner: UserId, input: TaskInput, today: Day, title: string, i: int)
    requires input.title.Some? && Padded(input.title.value, title, i)
    requires title != [] && !IsSpace(title[0]) && !IsSpace(title[|title| - 1]) && |title| <= TitleMaxLength
    requires input.priority.Some? && ParsePriority(input.priority.value).Some?
    requires input.willingness.Some? && ParseWillingness(input.willingness.value).Some?
    ensures TaskForm(owner, input, today).Success?
    ensures TaskForm(owner, input, today).value.title == title
  {
    StripOfPadded(input.title.value, title, i);
  }

  /** A title of whitespace only is refused as missing, whatever else is submitted. */
  lemma BlankTitleRefused(owner: UserId, input: TaskInput, today: Day)
    requires input.title.Some? && AllSpace(input.title.value)
    ensures TaskForm(owner, input, today).Failure?
    ensures Required(TitleField) in TaskForm(owner, input, today).error
  {
    var s := input.title.value;
    var r := Strip(s);
    var i :| Padded(s, r, i);
  }

  /** A saved task, submitted again as the form shows it, gives back the same row. */
  lemma ResubmitSavedTask(t: Task)
    requires 0 < |t.title| <= TitleMaxLength && Strip(t.title) == t.title
    requires t.description.Some? && Strip(t.description.value) == t.description.value
    requires !t.completed
    ensures TaskForm(t.owner, TaskInput(Some(t.title), t.description, Some(t.priority.Key()), Some(t.willingness.Key()), t.dueDate), t.createdDay)
         == Success(t)
  {
    PriorityKeyRoundTrip(t.priority);
    WillingnessKeyRoundTrip(t.willingness);
    var input := TaskInput(Some(t.title), t.description, Some(t.priority.Key()), Some(t.willingness.Key()), t.dueDate);
    assert CleanTitle(input.title) == Success(t.title);
    assert CleanChoice(input.priority, ParsePriority, PriorityField) == Success(t.priority);
    assert CleanChoice(input.willingness, ParseWillingness, WillingnessField) == Success(t.willingness);
  }
}

=== FILE: content_models.dfy ===
/**
  The rows of the productivity app (content_generator/models.py): tasks, diary events,
  daily summaries and advice, with their choice sets, defaults and field constraints.
*/
module ContentModels {
  import opened Wrappers

  /** An account, identified by its primary key. */
  type UserId = nat

  /** A calendar day, counted in days; the day before `d` is `d - 1`. */
  type Day = int

  /** PRIORITY_CHOICES. */
  datatype Priority = High | Medium | Low {
    function Key(): string {
      match this
      case High => "high"
      case Medium => "medium"
      case Low => "low"
    }
  }

  const DefaultPriority: Priority := Medium

  function ParsePriority(key: string): (r: Option<Priority>)
    ensures r.Some? ==> r.value.Key() == key
    ensures r.None? ==> forall p: Priority :: p.Key() != key
  {
    if key == "high" then Some(High)
    else if key == "medium" then Some(Medium)
    else if key == "low" then Some(Low)
    else None
  }

  /** Every priority's key parses back to it. */
  lemma PriorityKeyRoundTrip(p: Priority)
    ensures ParsePriority(p.Key()) == Some(p)
  {
    match p
    case High =>
    case Medium =>
    case Low =>
  }

  /** WILLINGNESS_CHOICES, from the least to the most willing. */
  datatype Willingness = VeryReluctant | Reluctant | Neutral | Willing | Eager {
    function Key(): string {
      match this
      case VeryReluctant => "😭"
      case Reluctant => "😕"
      case Neutral => "😐"
      case Willing => "🙂"
      case Eager => "😄"
    }
  }

  const DefaultWillingness: Willingness := Neutral

  function ParseWillingness(key: string): (r: Option<Willingness>)
    ensures r.Some? ==> r.value.Key() == key
    ensures r.None? ==> forall w: Willingness :: w.Key() != key
  {
    if key == "😭" then Some(VeryReluctant)
    else if key == "😕" then Some(Reluctant)
    else if key == "😐" then Some(Neutral)
    else if key == "🙂" then Some(Willing)
    else if key == "😄" then Some(Eager)
    else None
  }

  /** Every willingness's key parses back to it. */
  lemma WillingnessKeyRoundTrip(w: Willingness)
    ensures ParseWillingness(w.Key()) == Some(w)
  {
    match w
    case VeryReluctant =>
    case Reluctant =>
    case Neutral =>
    case Willing =>
    case Eager =>
  }

  /** MOOD_CHOICES of a diary event. */
  datatype Mood = Happy | Sad | Angry | Surprised | Sleepy | Excited | Thinking | Cool {
    function Key(): string {
      match this
      case Happy => "😄"
      case Sad => "😢"
      case Angry => "😠"
      case Surprised => "😲"
      case Sleepy => "😴"
      case Excited => "😍"
      case Thinking => "🤔"
      case Cool => "😎"
    }
  }

  const DefaultMood: Mood := Happy

  function ParseMood(key: string): (r: Option<Mood>)
    ensures r.Some? ==> r.value.Key() == key
    ensures r.None? ==> forall m: Mood :: m.Key() != key
  {
    if key == "😄" then Some(Happy)
    else if key == "😢" then Some(Sad)
    else if key == "😠" then Some(Angry)
    else if key == "😲" then Some(Surprised)
    else if key == "😴" then Some(Sleepy)
    else if key == "😍" then Some(Excited)
    else if key == "🤔" then Some(Thinking)
    else if key == "😎" then Some(Cool)
    else None
  }

  /** Every mood's key parses back to it. */
  lemma MoodKeyRoundTrip(m: Mood)
    ensures ParseMood(m.Key()) == Some(m)
  {
    match m
    case Happy =>
    case Sad =>
    case Angry =>
    case Surprised =>
    case Sleepy =>
    case Excited =>
    case Thinking =>
    case Cool =>
  }

  /** ADVICE_TYPE_CHOICES. */
  datatype AdviceType = TaskAdvice | EventAdvice | SummaryAdvice {
    function Key(): string {
      match this
      case TaskAdvice => "task"
      case EventAdvice => "event"
      case SummaryAdvice => "summary"
    }
  }

  /** Longest title of a task or an event. */
  const TitleMaxLength := 200

  /** A task; `dueDate` and `createdDay` are instants and days as integers. */
  datatype Task = Task(
    owner: UserId,
    title: string,
    description: Option<string>,
    priority: Priority,
    willingness: Willingness,
    dueDate: Option<int>,
    completed: bool,
    createdDay: Day)

  /** A diary event; `image` is the stored file name, if any. */
  datatype Event = Event(owner: UserId, title: string, content: string, mood: Mood, image: Option<string>, createdDay: Day)

  /** A daily summary; the pair (owner, date) is unique among summaries. */
  datatype DailySummary = DailySummary(owner: UserId, date: Day, summary: string, workEvaluation: Option<string>)

  /**
    An advice row. `relatedId` is a bare integer: nothing ties it to a task or an event,
    so it is not removed or changed when that row is deleted.
  */
  datatype Advice = Advice(owner: UserId, content: string, adviceType: AdviceType, relatedId: int)

  /** The task form's submitted values; None is a field left out. */
  datatype TaskInput = TaskInput(
    title: Option<string>,
    description: Option<string>,
    priority: Option<string>,
    willingness: Option<string>,
    dueDate: Option<int>)

  datatype TaskError = TitleRequired | TitleTooLong | BadPriority | BadWillingness

  /** A choice field left out takes its default; a submitted key must be one of the choices. */
  function ChoiceOr<T>(key: Option<string>, parse: string -> Option<T>, default: T): Option<T> {
    match key
    case None => Some(default)
    case Some(k) => parse(k)
  }

  /**
    A task row built from the model's own field rules, as `full_clean()` checks them: a
    title of 1 to 200 characters, a known priority and willingness (medium and 😐 when left
    out); the task starts not completed. The task form of `add_task` is stricter: see
    `ContentForms.TaskForm`.
  */
  function NewTask(owner: UserId, input: TaskInput, today: Day): (r: Result<Task, TaskError>)
    ensures r.Success? ==> (0 < |r.value.title| <= TitleMaxLength && !r.value.completed
      && r.value.owner == owner && r.value.createdDay == today)
    ensures r.Success? ==> (input.title == Some(r.value.title) && r.value.description == input.description
      && r.value.dueDate == input.dueDate)
    ensures r.Success? && input.priority.None? ==> r.value.priority == DefaultPriority
    ensures r.Success? && input.willingness.None? ==> r.value.willingness == DefaultWillingness
    ensures r.Success? && input.priority.Some? ==> r.value.priority.Key() == input.priority.value
    ensures r.Success? && input.willingness.Some? ==> r.value.willingness.Key() == input.willingness.value
    ensures r.Failure? <==> (input.title.None? || input.title.value == [] || |input.title.value| > TitleMaxLength
      || (input.priority.Some? && ParsePriority(input.priority.value).None?)
      || (input.willingness.Some? && ParseWillingness(input.willingness.value).None?))
  {
    if input.title.None? || input.title.value == [] then Failure(TitleRequired)
    else if |input.title.value| > TitleMaxLength then Failure(TitleTooLong)
    else
      match ChoiceOr(input.priority, ParsePriority, DefaultPriority)
      case None => Failure(BadPriority)
      case Some(p) =>
        match ChoiceOr(input.willingness, ParseWillingness, DefaultWillingness)
        case None => Failure(BadWillingness)
        case Some(w) => Success(Task(owner, input.title.value, input.description, p, w, input.dueDate, false, today))
  }

  /** Every field of a task row, given back to the model, rebuilds the same row. */
  lemma NewTaskRoundTrip(t: Task)
    requires 0 < |t.title| <= TitleMaxLength && !t.completed
    ensures NewTask(t.owner, TaskInput(Some(t.title), t.description, Some(t.priority.Key()), Some(t.willingness.Key()), t.dueDate), t.createdDay)
         == Success(t)
  {
    PriorityKeyRoundTrip(t.priority);
    WillingnessKeyRoundTrip(t.willingness);
  }

  /** An event's submitted values. */
  datatype EventInput = EventInput(title: Option<string>, content: Option<string>, mood: Option<string>, image: Option<string>)

  datatype EventError = EventTitleRequired | EventTitleTooLong | ContentRequired | BadMood

  /** An event row built from the model's field rules: a title of 1 to 200 characters, some content, a known mood (😄 when left out). */
  function NewEvent(owner: UserId, input: EventInput, today: Day): (r: Result<Event, EventError>)
    ensures r.Success? ==> 0 < |r.value.title| <= TitleMaxLength && r.value.content != []
    ensures r.Success? ==> (r.value.owner == owner && input.title == Some(r.value.title)
      && input.content == Some(r.value.content) && r.value.image == input.image && r.value.createdDay == today)
    ensures r.Success? && input.mood.None? ==> r.value.mood == DefaultMood
    ensures r.Success? && input.mood.Some? ==> r.value.mood.Key() == input.mood.value
    ensures r.Failure? <==> (input.title.None? || input.title.value == [] || |input.title.value| > TitleMaxLength
      || input.content.None? || input.content.value == []
      || (input.mood.Some? && ParseMood(input.mood.value).None?))
  {
    if input.title.None? || input.title.value == [] then Failure(EventTitleRequired)
    else if |input.title.value| > TitleMaxLength then Failure(EventTitleTooLong)
    else if input.content.None? || input.content.value == [] then Failure(ContentRequired)
    else
      match ChoiceOr(input.mood, ParseMood, DefaultMood)
      case None => Failure(BadMood)
      case Some(m) => Success(Event(owner, input.title.value, input.content.value, m, input.image, today))
  }

  /** Every field of an event row, given back to the model, rebuilds the same row. */
  lemma NewEventRoundTrip(e: Event)
    requires 0 < |e.title| <= TitleMaxLength && e.content != []
    ensures NewEvent(e.owner, EventInput(Some(e.title), Some(e.content), Some(e.mood.Key()), e.image), e.createdDay)
         == Success(e)
  {
    MoodKeyRoundTrip(e.mood);
  }

  /** The key of a summary row. */
  function SummaryKey(s: DailySummary): (UserId, Day) {
    (s.owner, s.date)
  }

  /** `unique_together = ('user', 'date')` over a table of summary rows. */
  ghost predicate UniqueSummaries(rows: seq<DailySummary>) {
    forall i, j :: 0 <= i < j < |rows| ==> SummaryKey(rows[i]) != SummaryKey(rows[j])
  }
}

=== FILE: device.dfy ===
/** Mobile-device detection from the User-Agent header (utils.py). */
module Device {
  import opened Wrappers
  import opened Text

  /** The keywords searched for, in the order the source lists them. */
  const MobileKeywords: seq<string> := [
    "mobile", "android", "iphone", "ipod", "blackberry",
    "windows phone", "iemobile", "opera mini", "mobile safari"
  ]

  /** Some keyword of `keywords` is a substring of `s`. */
  predicate AnyKeyword(s: string, keywords: seq<string>) {
    exists j :: 0 <= j < |keywords| && Contains(s, keywords[j])
  }

  /**
    `is_mobile_device`: the header (a missing header reads as "") is lower-cased and
    searched for each keyword.
  */
  function IsMobileDevice(userAgent: Option<string>): (r: bool)
    ensures userAgent == None ==> !r
    ensures userAgent == Some([]) ==> !r
  {
    AnyKeyword(Lower(userAgent.GetOr("")), MobileKeywords)
  }

  /** Adding characters before or after the header never turns a match into a miss. */
  lemma {:induction false} MobileMonotone(ua: string, before: string, after: string)
    requires IsMobileDevice(Some(ua))
    ensures IsMobileDevice(Some(before + ua + after))
  {
    var j :| 0 <= j < |MobileKeywords| && Contains(Lower(ua), MobileKeywords[j]);
    ContainsExtend(Lower(ua), MobileKeywords[j], Lower(before), Lower(after));
    LowerAppend(before + ua, after);
    LowerAppend(before, ua);
  }

  /** Matching ignores the case of ASCII letters: two headers equal up to case agree. */
  lemma CaseInsensitive(ua1: string, ua2: string)
    requires Lower(ua1) == Lower(ua2)
    ensures IsMobileDevice(Some(ua1)) == IsMobileDevice(Some(ua2))
  {
  }

  /** An upper-case "IPHONE" header is detected. */
  lemma UpperCaseIphoneDetected()
    ensures IsMobileDevice(Some("Mozilla/5.0 (IPHONE)"))
  {
    var s := Lower("Mozilla/5.0 (IPHONE)");
    assert s[13..19] == "iphone";
    assert OccursAt(MobileKeywords[2], s, 13);
  }

  /** The keywords that add nothing: each contains "mobile", the first keyword. */
  const ShortKeywords: seq<string> := [
    "mobile", "android", "iphone", "ipod", "blackberry", "windows phone", "opera mini"
  ]

  /**
    "iemobile" and "mobile safari" are redundant: the header matches the nine keywords
    exactly when it matches the seven others.
  */
  lemma {:induction false} RedundantKeywords(ua: string)
    ensures IsMobileDevice(Some(ua)) <==> AnyKeyword(Lower(ua), ShortKeywords)
  {
    var s := Lower(ua);
    if AnyKeyword(s, MobileKeywords) {
      var j :| 0 <= j < |MobileKeywords| && Contains(s, MobileKeywords[j]);
      if j == 6 {
        ContainsSuffix(s, "iemobile", 2);
        assert "iemobile"[2..] == "mobile";
        assert Contains(s, ShortKeywords[0]);
      } else if j == 8 {
        ContainsPrefix(s, "mobile safari", 6);
        assert "mobile safari"[..6] == "mobile";
        assert Contains(s, ShortKeywords[0]);
      } else if j == 7 {
        assert Contains(s, ShortKeywords[6]);
      } else {
        assert Contains(s, ShortKeywords[j]);
      }
    }
    if AnyKeyword(s, ShortKeywords) {
      var j :| 0 <= j < |ShortKeywords| && Contains(s, ShortKeywords[j]);
      if j == 6 {
        assert Contains(s, MobileKeywords[7]);
      } else {
        assert Contains(s, MobileKeywords[j]);
      }
    }
  }
}

=== FILE: generator_models.dfy ===
/**
  The caption request of the generator app (generator/models.py): its choice sets, its
  fields, and the validation the model applies before a request is saved.
*/
module GeneratorModels {
  import opened Wrappers
  import opened Text

  /** STYLE_CHOICES, in the order the source lists them. */
  datatype Style = Casual | Formal | Humorous | Emotional | Inspirational
                 | Professional | Trendy | Literary | Minimalist | Dramatic
  {
    function Key(): string {
      match this
      case Casual => "casual"
      case Formal => "formal"
      case Humorous => "humorous"
      case Emotional => "emotional"
      case Inspirational => "inspirational"
      case Professional => "professional"
      case Trendy => "trendy"
      case Literary => "literary"
      case Minimalist => "minimalist"
      case Dramatic => "dramatic"
    }

    function Label(): string {
      match this
      case Casual => "轻松随意"
      case Formal => "正式严肃"
      case Humorous => "幽默风趣"
      case Emotional => "深情感人"
      case Inspirational => "励志向上"
      case Professional => "专业商务"
      case Trendy => "时尚潮流"
      case Literary => "文艺清新"
      case Minimalist => "简约风格"
      case Dramatic => "戏剧化"
    }
  }

  /** The style whose key is `key`, if any. */
  function ParseStyle(key: string): (r: Option<Style>)
    ensures r.Some? ==> r.value.Key() == key
    ensures forall s: Style :: s.Key() == key ==> r == Some(s)
  {
    if key == "casual" then Some(Casual)
    else if key == "formal" then Some(Formal)
    else if key == "humorous" then Some(Humorous)
    else if key == "emotional" then Some(Emotional)
    else if key == "inspirational" then Some(Inspirational)
    else if key == "professional" then Some(Professional)
    else if key == "trendy" then Some(Trendy)
    else if key == "literary" then Some(Literary)
    else if key == "minimalist" then Some(Minimalist)
    else if key == "dramatic" then Some(Dramatic)
    else None
  }

  /**
    `get_style_display()`: the label of a known key; Django shows an unknown stored value
    as it is.
  */
  function StyleDisplay(key: string): (r: string)
    ensures forall s: Style :: s.Key() == key ==> r == s.Label()
    ensures ParseStyle(key).None? ==> r == key
  {
    match ParseStyle(key)
    case Some(s) => s.Label()
    case None => key
  }

  /** LANGUAGE_CHOICES, in the order the source lists them. */
  datatype Language = ZhCn | ZhTw | En | Ja | Ko | Es | Fr | De | Pt | Ru {
    function Code(): string {
      match this
      case ZhCn => "zh-cn"
      case ZhTw => "zh-tw"
      case En => "en"
      case Ja => "ja"
      case Ko => "ko"
      case Es => "es"
      case Fr => "fr"
      case De => "de"
      case Pt => "pt"
      case Ru => "ru"
    }
  }

  const DefaultLanguage: Language := ZhCn

  function ParseLanguage(code: string): (r: Option<Language>)
    ensures r.Some? ==> r.value.Code() == code
    ensures r.None? ==> forall l: Language :: l.Code() != code
  {
    if code == "zh-cn" then Some(ZhCn)
    else if code == "zh-tw" then Some(ZhTw)
    else if code == "en" then Some(En)
    else if code == "ja" then Some(Ja)
    else if code == "ko" then Some(Ko)
    else if code == "es" then Some(Es)
    else if code == "fr" then Some(Fr)
    else if code == "de" then Some(De)
    else if code == "pt" then Some(Pt)
    else if code == "ru" then Some(Ru)
    else None
  }

  /** One generated caption, as stored in `generated_content`. */
  datatype Caption = Caption(id: nat, content: string, style: string)

  /** A row of ContentRequest. Optional fields are Option; keys are kept as the strings stored. */
  datatype ContentRequest = ContentRequest(
    image: Option<string>,
    eventDescription: Option<string>,
    style: string,
    language: string,
    audienceType: string,
    audienceDescription: string,
    additionalNotes: Option<string>,
    generatedContent: Option<seq<Caption>>)

  /** Field lengths (max_length) of the model. */
  const StyleMaxLength := 20
  const LanguageMaxLength := 10
  const AudienceTypeMaxLength := 100
  const AudienceDescriptionMaxLength := 500
  const EventDescriptionMaxLength := 1000
  const AdditionalNotesMaxLength := 500

  /** The image extensions the upload accepts. */
  const AllowedImageExtensions: seq<string> := ["jpg", "jpeg", "png", "gif"]

  /** Index of the last `.` in `name`, if any. */
  function LastDot(name: string): (r: Option<nat>)
    ensures r.Some? ==> (r.value < |name| && name[r.value] == '.'
      && forall k :: r.value < k < |name| ==> name[k] != '.')
    ensures r.None? ==> forall k :: 0 <= k < |name| ==> name[k] != '.'
  {
    if name == [] then None
    else if name[|name| - 1] == '.' then Some(|name| - 1)
    else LastDot(name[..|name| - 1])
  }

  /**
    The extension the upload validator checks: the text after the last dot, lower-cased;
    empty when there is no dot, when the name starts with its only dot or ends in a dot
    (Python's `Path(name).suffix[1:].lower()`).
  */
  function Extension(name: string): (r: string)
    ensures |r| <= |name|
    ensures forall i :: IsInnerLastDot(name, i) ==> r == Lower(name[i + 1..])
    ensures r == [] <==> forall i :: !IsInnerLastDot(name, i)
  {
    match LastDot(name)
    case Some(i) =>
      if 0 < i < |name| - 1 then
        assert IsInnerLastDot(name, i);
        assert forall j :: IsInnerLastDot(name, j) ==> j == i;
        Lower(name[i + 1..])
      else
        assert forall j :: IsInnerLastDot(name, j) ==> j == i;
        []
    case None => []
  }

  /** Only the text after the last dot counts, in any letter case; a leading dot is no extension. */
  lemma ExtensionExamples()
    ensures Extension("a.png.jpg") == "jpg"
    ensures Extension("photo.PNG") == "png"
    ensures Extension(".jpg") == []
    ensures Extension("photo.") == []
  {
    assert IsInnerLastDot("a.png.jpg", 5);
    assert IsInnerLastDot("photo.PNG", 5);
  }

  /** `name[i]` is the last dot of `name`, with text both before and after it. */
  predicate IsInnerLastDot(name: string, i: int) {
    0 < i < |name| - 1 && name[i] == '.' && forall k :: i < k < |name| ==> name[k] != '.'
  }

  /** The field errors the model reports; each field reports at most one. */
  datatype Field = ImageField | EventDescriptionField | StyleField | LanguageField
                 | AudienceTypeField | AudienceDescriptionField | AdditionalNotesField
  datatype FieldError = Required(field: Field) | InvalidChoice(field: Field)
                      | TooLong(field: Field, maxLength: nat) | BadExtension

  /** The submitted values; None is a field left out of the submission. */
  datatype RequestInput = RequestInput(
    image: Option<string>,
    eventDescription: Option<string>,
    style: Option<string>,
    language: Option<string>,
    audienceType: Option<string>,
    audienceDescription: Option<string>,
    additionalNotes: Option<string>)

  function CheckImage(image: Option<string>): Option<FieldError> {
    match image
    case None => None
    case Some(name) => if Extension(name) in AllowedImageExtensions then None else Some(BadExtension)
  }

  /** An optional text field of the form: stripped; blank is allowed, a long one is not. */
  function CheckOptionalText(field: Field, value: Option<string>, maxLength: nat): Option<FieldError> {
    if |Strip(value.GetOr(""))| <= maxLength then None else Some(TooLong(field, maxLength))
  }

  /** A required text field of the form: stripped, then missing or blank is an error, then the length. */
  function CheckRequiredText(field: Field, value: Option<string>, maxLength: nat): Option<FieldError> {
    var text := Strip(value.GetOr(""));
    if text == [] then Some(Required(field))
    else if |text| <= maxLength then None
    else Some(TooLong(field, maxLength))
  }

  /**
    A choice field of the form: absent or empty is required, even where the model has a
    default; the value is not stripped and must be one of the keys.
  */
  function CheckChoice(field: Field, value: Option<string>, known: string -> bool): Option<FieldError> {
    if value.None? || value.value == [] then Some(Required(field))
    else if !known(value.value) then Some(InvalidChoice(field))
    else None
  }

  function IsStyleKey(key: string): bool {
    ParseStyle(key).Some?
  }

  function IsLanguageCode(code: string): bool {
    ParseLanguage(code).Some?
  }

  function Errors(checks: seq<Option<FieldError>>): (r: seq<FieldError>)
    ensures |r| <= |checks|
    ensures r == [] <==> forall k :: 0 <= k < |checks| ==> checks[k].None?
    ensures forall k :: 0 <= k < |checks| && checks[k].Some? ==> checks[k].value in r
  {
    if checks == [] then []
    else (if checks[0].Some? then [checks[0].value] else []) + Errors(checks[1..])
  }

  /** A text kept as the form cleans it: without whitespace at either end. */
  predicate Stripped(text: string) {
    Strip(text) == text
  }

  /** Every row the form can produce, before captions are added. */
  predicate ValidRequest(r: ContentRequest) {
    && (r.image.Some? ==> Extension(r.image.value) in AllowedImageExtensions)
    && r.eventDescription.Some? && Stripped(r.eventDescription.value)
    && |r.eventDescription.value| <= EventDescriptionMaxLength
    && ParseStyle(r.style).Some?
    && ParseLanguage(r.language).Some?
    && Stripped(r.audienceType) && 0 < |r.audienceType| <= AudienceTypeMaxLength
    && Stripped(r.audienceDescription) && 0 < |r.audienceDescription| <= AudienceDescriptionMaxLength
    && r.additionalNotes.Some? && Stripped(r.additionalNotes.value)
    && |r.additionalNotes.value| <= AdditionalNotesMaxLength
    && r.generatedContent.None?
  }

  /** The checks of the seven form fields, in the order the form lists them. */
  function Checks(input: RequestInput): (r: seq<Option<FieldError>>)
    ensures |r| == 7
  {
    [ CheckImage(input.image),
      CheckOptionalText(EventDescriptionField, input.eventDescription, EventDescriptionMaxLength),
      CheckChoice(StyleField, input.style, IsStyleKey),
      CheckChoice(LanguageField, input.language, IsLanguageCode),
      CheckRequiredText(AudienceTypeField, input.audienceType, AudienceTypeMaxLength),
      CheckRequiredText(AudienceDescriptionField, input.audienceDescription, AudienceDescriptionMaxLength),
      CheckOptionalText(AdditionalNotesField, input.additionalNotes, AdditionalNotesMaxLength) ]
  }

  /** Every field of the submission passes its check. */
  predicate FormAccepts(input: RequestInput) {
    && (input.image.Some? ==> Extension(input.image.value) in AllowedImageExtensions)
    && |Strip(input.eventDescription.GetOr(""))| <= EventDescriptionMaxLength
    && input.style.Some? && ParseStyle(input.style.value).Some?
    && input.language.Some? && ParseLanguage(input.language.value).Some?
    && 0 < |Strip(input.audienceType.GetOr(""))| <= AudienceTypeMaxLength
    && 0 < |Strip(input.audienceDescription.GetOr(""))| <= AudienceDescriptionMaxLength
    && |Strip(input.additionalNotes.GetOr(""))| <= AdditionalNotesMaxLength
  }

  /** The row holding the cleaned values of a submission. */
  function CleanedRow(input: RequestInput): ContentRequest
    requires input.style.Some? && input.language.Some?
  {
    ContentRequest(
      input.image, Some(Strip(input.eventDescription.GetOr(""))), input.style.value, input.language.value,
      Strip(input.audienceType.GetOr("")), Strip(input.audienceDescription.GetOr("")),
      Some(Strip(input.additionalNotes.GetOr(""))), None)
  }

  /** The checks all pass exactly when the submission is accepted. */
  lemma ChecksPassIffAccepted(input: RequestInput)
    ensures var c := Checks(input);
      (c[0].None? && c[1].None? && c[2].None? && c[3].None? && c[4].None? && c[5].None? && c[6].None?)
      <==> FormAccepts(input)
  {
    var c := Checks(input);
    assert c[0].None? <==> (input.image.Some? ==> Extension(input.image.value) in AllowedImageExtensions);
    assert c[1].None? <==> |Strip(input.eventDescription.GetOr(""))| <= EventDescriptionMaxLength;
    assert c[2].None? <==> input.style.Some? && ParseStyle(input.style.value).Some?;
    assert c[3].None? <==> input.language.Some? && ParseLanguage(input.language.value).Some?;
    assert c[4].None? <==> 0 < |Strip(input.audienceType.GetOr(""))| <= AudienceTypeMaxLength;
    assert c[5].None? <==> 0 < |Strip(input.audienceDescription.GetOr(""))| <= AudienceDescriptionMaxLength;
    assert c[6].None? <==> |Strip(input.additionalNotes.GetOr(""))| <= AdditionalNotesMaxLength;
  }

  /** The cleaned row of an accepted submission is a row the form can produce. */
  lemma CleanedRowValid(input: RequestInput)
    requires FormAccepts(input)
    ensures ValidRequest(CleanedRow(input))
  {
    StripIdempotent(input.eventDescription.GetOr(""));
    StripIdempotent(input.audienceType.GetOr(""));
    StripIdempotent(input.audienceDescription.GetOr(""));
    StripIdempotent(input.additionalNotes.GetOr(""));
  }

  /**
    `ContentGenerationForm(request.POST, request.FILES).is_valid()` and then
    `form.save(commit=False)`: each of the seven fields is cleaned and checked, every
    failing field reports its error, and a form with no error becomes a row holding the
    cleaned values. Text fields are stripped; style and language must both be submitted.
  */
  function Validate(input: RequestInput): (r: Result<ContentRequest, seq<FieldError>>)
    ensures r.Success? <==> FormAccepts(input)
    ensures r.Success? ==> ValidRequest(r.value)
    ensures r.Success? ==>
      && r.value.image == input.image
      && r.value.eventDescription == Some(Strip(input.eventDescription.GetOr("")))
      && r.value.style == input.style.value
      && r.value.language == input.language.value
      && r.value.audienceType == Strip(input.audienceType.GetOr(""))
      && r.value.audienceDescription == Strip(input.audienceDescription.GetOr(""))
      && r.value.additionalNotes == Some(Strip(input.additionalNotes.GetOr("")))
    ensures r.Failure? ==> 0 < |r.error| <= 7
    ensures r.Failure? && (input.style.None? || input.style.value == []) ==> Required(StyleField) in r.error
    ensures r.Failure? && (input.language.None? || input.language.value == []) ==> Required(LanguageField) in r.error
  {
    if FormAccepts(input) then
      CleanedRowValid(input);
      Success(CleanedRow(input))
    else
      RejectedErrors(input);
      Failure(Errors(Checks(input)))
  }

  /** A refused submission reports at least one error, and a missing choice as required. */
  lemma RejectedErrors(input: RequestInput)
    requires !FormAccepts(input)
    ensures var e := Errors(Checks(input));
      && 0 < |e| <= 7
      && ((input.style.None? || input.style.value == []) ==> Required(StyleField) in e)
      && ((input.language.None? || input.language.value == []) ==> Required(LanguageField) in e)
  {
    ChecksPassIffAccepted(input);
    var checks := Checks(input);
    assert checks[2] == CheckChoice(StyleField, input.style, IsStyleKey);
    assert checks[3] == CheckChoice(LanguageField, input.language, IsLanguageCode);
  }

  /** The submission that reproduces a row. */
  function InputOf(r: ContentRequest): RequestInput {
    RequestInput(r.image, r.eventDescription, Some(r.style), Some(r.language),
                 Some(r.audienceType), Some(r.audienceDescription), r.additionalNotes)
  }

  /** Every row the form can produce is accepted, unchanged, when submitted again. */
  lemma ValidateAcceptsValid(r: ContentRequest)
    requires ValidRequest(r)
    ensures Validate(InputOf(r)) == Success(r)
  {
    var input := InputOf(r);
    assert forall k :: 0 <= k < 7 ==> Checks(input)[k].None?;
  }

  /** A style outside STYLE_CHOICES is refused with an invalid-choice error. */
  lemma UnknownStyleRefused(input: RequestInput)
    requires input.style.Some? && input.style.value != [] && ParseStyle(input.style.value).None?
    ensures Validate(input).Failure? && InvalidChoice(StyleField) in Validate(input).error
  {
    assert Checks(input)[2] == Some(InvalidChoice(StyleField));
  }

  /** A submission without a language is refused: the model's default does not apply to the form. */
  lemma MissingLanguageRefused(input: RequestInput)
    requires input.language.None?
    ensures Validate(input).Failure? && Required(LanguageField) in Validate(input).error
  {
  }

  /** An audience type of whitespace only is refused as missing. */
  lemma BlankAudienceTypeRefused(input: RequestInput)
    requires input.audienceType.Some? && AllSpace(input.audienceType.value)
    ensures Validate(input).Failure? && Required(AudienceTypeField) in Validate(input).error
  {
    var s := input.audienceType.value;
    var i :| Padded(s, Strip(s), i);
    assert Checks(input)[4] == Some(Required(AudienceTypeField));
  }
}

=== FILE: generator_views.dfy ===
/**
  The caption generator of the generator app (generator/views.py): the per-style template
  and emoji tables, `generate_content`, and the two views around it, `form_valid` and
  `results_view`.
*/
module GeneratorViews {
  import opened Wrappers
  import opened CaptionTemplates
  import opened GeneratorModels

  /** How many captions one request yields. */
  const CaptionCount := 5

  /** The texts used when the request leaves the event or the notes empty. */
  const EventFallback := "参与这个活动"
  const DescriptionFallback := "收获了很多美好的回忆"

  /** The emoji of a style missing from the emoji table. */
  const DefaultEmojis: seq<string> := ["😊", "🌟", "✨"]

  /** `style_templates`: five templates per style, in table order. */
  function StyleTemplates(s: Style): (r: seq<Template>)
    ensures |r| == 5
  {
    match s
    case Casual => CasualTemplates()
    case Formal => FormalTemplates()
    case Humorous => HumorousTemplates()
    case Emotional => EmotionalTemplates()
    case Inspirational => InspirationalTemplates()
    case Professional => ProfessionalTemplates()
    case Trendy => TrendyTemplates()
    case Literary => LiteraryTemplates()
    case Minimalist => MinimalistTemplates()
    case Dramatic => DramaticTemplates()
  }

  function CasualTemplates(): (r: seq<Template>)
    ensures |r| == 5
  {
    [
      [Lit("今天"), EventSlot, Lit("，心情超级好！"), EmojiSlot, Lit(" "), DescriptionSlot],
      [Lit("分享一下"), EventSlot, Lit("的快乐时光～ "), DescriptionSlot, Lit(" 😊")],
      [Lit("生活就是要这样轻松愉快！"), EventSlot, Lit(" "), DescriptionSlot],
      [Lit("记录美好的一天！"), EventSlot, Lit(" "), DescriptionSlot, Lit(" ✨")],
      [Lit("简单的快乐就是这样～"), EventSlot, Lit(" "), DescriptionSlot, Lit(" 🌟")]
    ]
  }

  function FormalTemplates(): (r: seq<Template>)
    ensures |r| == 5
  {
    [
      [Lit("很荣幸能够"), EventSlot, Lit("，"), DescriptionSlot, Lit("。感谢大家的支持与信任。")],
      [Lit("今日"), EventSlot, Lit("，"), DescriptionSlot, Lit("。希望能够继续为大家提供更好的服务。")],
      [Lit("通过"), EventSlot, Lit("，"), DescriptionSlot, Lit("。期待与大家有更多的合作机会。")],
      [Lit("在"), EventSlot, Lit("的过程中，"), DescriptionSlot, Lit("。非常感谢各位的参与和支持。")],
      [Lit("此次"), EventSlot, Lit("让我深有感触，"), DescriptionSlot, Lit("。愿与大家共同进步。")]
    ]
  }

  function HumorousTemplates(): (r: seq<Template>)
    ensures |r| == 5
  {
    [
      [Lit("哈哈哈，"), EventSlot, Lit("简直笑死我了！"), DescriptionSlot, Lit(" 😂")],
      [Lit("今天"), EventSlot, Lit("，我的表情包又要更新了！"), DescriptionSlot, Lit(" 🤣")],
      [Lit("论"), EventSlot, Lit("的正确打开方式："), DescriptionSlot, Lit(" 哈哈哈哈")],
      [Lit("警告："), EventSlot, Lit("有剧毒，"), DescriptionSlot, Lit("，笑得停不下来！😄")],
      [Lit("今日份的沙雕时刻："), EventSlot, Lit("，"), DescriptionSlot, Lit(" 🤪")]
    ]
  }

  function EmotionalTemplates(): (r: seq<Template>)
    ensures |r| == 5
  {
    [
      [Lit("今天"), EventSlot, Lit("，让我想起了很多往事。"), DescriptionSlot, Lit("，愿我们都能珍惜当下。💕")],
      [Lit("每一次"), EventSlot, Lit("都是成长的印记。"), DescriptionSlot, Lit("，感恩遇见的每一个人。🙏")],
      [Lit("在"), EventSlot, Lit("的这一刻，"), DescriptionSlot, Lit("。愿时光不老，友谊长存。❤️")],
      [Lit("人生就是这样，"), EventSlot, Lit("让我明白"), DescriptionSlot, Lit("。感谢生活给予的所有经历。🌹")],
      [Lit("今天"), EventSlot, Lit("，心中满怀感动。"), DescriptionSlot, Lit("。愿爱与美好一直陪伴着我们。💖")]
    ]
  }

  function InspirationalTemplates(): (r: seq<Template>)
    ensures |r| == 5
  {
    [
      [Lit("通过"), EventSlot, Lit("，我更加坚信"), DescriptionSlot, Lit("。让我们一起努力，创造更美好的明天！💪")],
      [Lit("每一次"), EventSlot, Lit("都是新的开始。"), DescriptionSlot, Lit("，相信自己，永远不要放弃！🌟")],
      [Lit("今天"), EventSlot, Lit("让我深深体会到"), DescriptionSlot, Lit("。路虽远，行则必至！🚀")],
      [Lit("在"), EventSlot, Lit("中收获满满，"), DescriptionSlot, Lit("。记住，你比想象中更强大！⭐")],
      [Lit("生命中的每一次"), EventSlot, Lit("都有其意义。"), DescriptionSlot, Lit("，让我们勇敢追梦！🎯")]
    ]
  }

  function ProfessionalTemplates(): (r: seq<Template>)
    ensures |r| == 5
  {
    [
      [Lit("今日"), EventSlot, Lit("圆满结束，"), DescriptionSlot, Lit("。期待与更多优秀的合作伙伴携手共进。")],
      [Lit("通过"), EventSlot, Lit("，"), DescriptionSlot, Lit("。我们将继续秉承专业精神，为客户提供优质服务。")],
      [Lit("在"), EventSlot, Lit("中，"), DescriptionSlot, Lit("。感谢团队的辛勤付出和客户的信任支持。")],
      [Lit("此次"), EventSlot, Lit("收获颇丰，"), DescriptionSlot, Lit("。我们将持续创新，追求卓越。")],
      [Lit("参与"), EventSlot, Lit("让我们"), DescriptionSlot, Lit("。期待未来有更多机会为行业发展贡献力量。")]
    ]
  }

  function TrendyTemplates(): (r: seq<Template>)
    ensures |r| == 5
  {
    [
      [EventSlot, Lit("简直太amazing了！"), DescriptionSlot, Lit(" ✨ #今日份的美好 #生活记录")],
      [Lit("今天"), EventSlot, Lit("，vibe拉满！"), DescriptionSlot, Lit(" 🔥 #mood #lifestyle")],
      [Lit("OMG！"), EventSlot, Lit("让我"), DescriptionSlot, Lit("，太绝了！💫 #daily #share")],
      [Lit("今日"), EventSlot, Lit("，氛围感满分！"), DescriptionSlot, Lit(" 🌈 #moment #life")],
      [Lit("Wow！"), EventSlot, Lit("的体验感"), DescriptionSlot, Lit("，爱了爱了！💕 #experience #happy")]
    ]
  }

  function LiteraryTemplates(): (r: seq<Template>)
    ensures |r| == 5
  {
    [
      [Lit("春有百花秋有月，今日"), EventSlot, Lit("，"), DescriptionSlot, Lit("。愿岁月不扰，时光静好。🌸")],
      [Lit("时光荏苒，"), EventSlot, Lit("如期而至。"), DescriptionSlot, Lit("，如诗如画，如梦如幻。📖")],
      [Lit("今日"), EventSlot, Lit("，恰如春风拂面，"), DescriptionSlot, Lit("。愿所有美好都如约而至。🍃")],
      [Lit("人生若只如初见，"), EventSlot, Lit("时"), DescriptionSlot, Lit("。愿我们都能在平凡中找到诗意。🌙")],
      [Lit("今天"), EventSlot, Lit("，仿佛置身于画卷之中。"), DescriptionSlot, Lit("，美好如斯。🎨")]
    ]
  }

  function MinimalistTemplates(): (r: seq<Template>)
    ensures |r| == 5
  {
    [
      [EventSlot, Lit("。"), DescriptionSlot, Lit("。")],
      [Lit("今日："), EventSlot, Lit("。"), DescriptionSlot, Lit("。")],
      [EventSlot, Lit("。感受："), DescriptionSlot, Lit("。")],
      [Lit("记录："), EventSlot, Lit("。"), DescriptionSlot, Lit("。")],
      [EventSlot, Lit("，"), DescriptionSlot, Lit("。简单美好。")]
    ]
  }

  function DramaticTemplates(): (r: seq<Template>)
    ensures |r| == 5
  {
    [
      [Lit("天哪！"), EventSlot, Lit("的那一刻，"), DescriptionSlot, Lit("！整个世界都安静了！😱")],
      [Lit("不敢相信！"), EventSlot, Lit("竟然"), DescriptionSlot, Lit("！这简直是命运的安排！✨")],
      [Lit("震惊！今天"), EventSlot, Lit("，"), DescriptionSlot, Lit("！我的内心久久不能平静！💥")],
      [Lit("奇迹发生了！"), EventSlot, Lit("让我"), DescriptionSlot, Lit("！这一刻值得铭记一生！🎭")],
      [Lit("太不可思议了！"), EventSlot, Lit("的时候"), DescriptionSlot, Lit("！人生就是这么戏剧化！🎪")]
    ]
  }

  /** `emoji_map`: five emoji per style, in table order. */
  function StyleEmojis(s: Style): (r: seq<string>)
    ensures |r| == 5
  {
    match s
    case Casual => ["😊", "😄", "🌟", "✨", "💫"]
    case Formal => ["🙏", "💼", "🤝", "📈", "⭐"]
    case Humorous => ["😂", "🤣", "😄", "🤪", "😜"]
    case Emotional => ["💕", "❤️", "🌹", "💖", "🙏"]
    case Inspirational => ["💪", "🌟", "🚀", "⭐", "🎯"]
    case Professional => ["💼", "📊", "🤝", "📈", "⚡"]
    case Trendy => ["🔥", "✨", "💫", "🌈", "💕"]
    case Literary => ["🌸", "📖", "🍃", "🌙", "🎨"]
    case Minimalist => ["。", "·", "-", "|", ""]
    case Dramatic => ["😱", "✨", "💥", "🎭", "🎪"]
  }

  /** `style_templates.get(style, style_templates['casual'])`. */
  function TemplatesFor(key: string): (r: seq<Template>)
    ensures |r| == 5
    ensures forall s: Style :: s.Key() == key ==> r == StyleTemplates(s)
    ensures ParseStyle(key).None? ==> r == StyleTemplates(Casual)
  {
    match ParseStyle(key)
    case Some(s) => StyleTemplates(s)
    case None => StyleTemplates(Casual)
  }

  /** `emoji_map.get(style, ['😊', '🌟', '✨'])`. */
  function EmojisFor(key: string): (r: seq<string>)
    ensures 3 <= |r| <= 5
    ensures forall s: Style :: s.Key() == key ==> r == StyleEmojis(s)
    ensures ParseStyle(key).None? ==> r == DefaultEmojis
  {
    match ParseStyle(key)
    case Some(s) => StyleEmojis(s)
    case None => DefaultEmojis
  }

  /** Python's `text or fallback`: a missing or empty text gives way to the fallback. */
  function OrFallback(text: Option<string>, fallback: string): (r: string)
    ensures text.None? || text.value == [] ==> r == fallback
    ensures text.Some? && text.value != [] ==> r == text.value
  {
    if text.Some? && text.value != [] then text.value else fallback
  }

  function EventText(req: ContentRequest): string {
    OrFallback(req.eventDescription, EventFallback)
  }

  function DescriptionText(req: ContentRequest): string {
    OrFallback(req.additionalNotes, DescriptionFallback)
  }

  /** The template of the caption at 0-based position `i`: `templates[i % len(templates)]`. */
  function TemplateAt(req: ContentRequest, i: nat): Template {
    var templates := TemplatesFor(req.style);
    templates[i % |templates|]
  }

  /** The emoji of the caption at 0-based position `i`: `emojis[i % len(emojis)]`. */
  function EmojiAt(req: ContentRequest, i: nat): string {
    var emojis := EmojisFor(req.style);
    emojis[i % |emojis|]
  }

  /** The caption at 0-based position `i`. */
  function CaptionAt(req: ContentRequest, i: nat): Caption {
    Caption(i + 1,
            Render(TemplateAt(req, i), EventText(req), DescriptionText(req), EmojiAt(req, i)),
            StyleDisplay(req.style))
  }

  /** What `generate_content` returns for a request. */
  function Captions(req: ContentRequest): seq<Caption> {
    seq(CaptionCount, i requires 0 <= i < CaptionCount => CaptionAt(req, i))
  }

  /** `generate_content`: five captions, ids 1 to 5, all labelled with the style's display name. */
  method GenerateContent(req: ContentRequest) returns (texts: seq<Caption>)
    ensures texts == Captions(req)
    ensures |texts| == CaptionCount
    ensures forall i :: 0 <= i < |texts| ==> texts[i].id == i + 1 && texts[i].style == StyleDisplay(req.style)
  {
    var templates := TemplatesFor(req.style);
    var event := OrFallback(req.eventDescription, EventFallback);
    var description := OrFallback(req.additionalNotes, DescriptionFallback);
    var emojis := EmojisFor(req.style);
    texts := [];
    var i := 0;
    while i < CaptionCount
      invariant 0 <= i <= CaptionCount
      invariant |texts| == i
      invariant forall j :: 0 <= j < i ==> texts[j] == CaptionAt(req, j)
    {
      var template := templates[i % |templates|];
      var emoji := emojis[i % |emojis|];
      assert template == TemplateAt(req, i) && emoji == EmojiAt(req, i);
      var text := Render(template, event, description, emoji);
      texts := texts + [Caption(i + 1, text, StyleDisplay(req.style))];
      i := i + 1;
    }
  }

  /** A known style uses each of its five templates and emoji exactly once, in table order. */
  lemma KnownStyleInTableOrder(req: ContentRequest, s: Style, i: nat)
    requires s.Key() == req.style && i < CaptionCount
    ensures Captions(req)[i].content
         == Render(StyleTemplates(s)[i], EventText(req), DescriptionText(req), StyleEmojis(s)[i])
    ensures Captions(req)[i].style == s.Label()
  {
    assert Captions(req)[i] == CaptionAt(req, i);
    assert TemplatesFor(req.style) == StyleTemplates(s) && EmojisFor(req.style) == StyleEmojis(s);
    assert i % 5 == i;
  }

  /**
    A style missing from both tables takes the casual templates and the default emoji,
    and is shown by its raw key; nothing fails.
  */
  lemma UnknownStyleFallsBack(req: ContentRequest, i: nat)
    requires ParseStyle(req.style).None? && i < CaptionCount
    ensures Captions(req)[i].content
         == Render(StyleTemplates(Casual)[i], EventText(req), DescriptionText(req), DefaultEmojis[i % 3])
    ensures Captions(req)[i].style == req.style
  {
    assert Captions(req)[i] == CaptionAt(req, i);
    assert TemplatesFor(req.style) == StyleTemplates(Casual) && EmojisFor(req.style) == DefaultEmojis;
    assert i % 5 == i;
  }

  /** Only the first casual template has an `{emoji}` placeholder. */
  lemma EmojiOnlyInFirstCasualTemplate(s: Style, i: nat)
    requires i < 5
    ensures EmojiSlot in StyleTemplates(s)[i] <==> s == Casual && i == 0
  {
    var t := StyleTemplates(s)[i];
    if i == 0 {
      assert t == StyleTemplates(s)[0];
    } else if i == 1 {
      assert t == StyleTemplates(s)[1];
    } else if i == 2 {
      assert t == StyleTemplates(s)[2];
    } else if i == 3 {
      assert t == StyleTemplates(s)[3];
    } else {
      assert t == StyleTemplates(s)[4];
    }
  }

  /**
    Because of that, a request with an unknown style gets word for word the captions of
    the casual style: the default emoji list and the casual one agree on the only emoji
    that is ever used.
  */
  lemma UnknownStyleWritesCasualCaptions(req: ContentRequest, i: nat)
    requires ParseStyle(req.style).None? && i < CaptionCount
    ensures Captions(req)[i].content == Captions(req.(style := Casual.Key()))[i].content
  {
    var casual := req.(style := Casual.Key());
    var t := StyleTemplates(Casual)[i];
    UnknownStyleFallsBack(req, i);
    KnownStyleInTableOrder(casual, Casual, i);
    assert EventText(casual) == EventText(req) && DescriptionText(casual) == DescriptionText(req);
    if i != 0 {
      EmojiOnlyInFirstCasualTemplate(Casual, i);
      RenderIgnoresEmoji(t, EventText(req), DescriptionText(req), DefaultEmojis[i % 3], StyleEmojis(Casual)[i]);
    }
  }

  /** Each caption is what Python's `template.format(...)` yields on the source's template text. */
  lemma CaptionIsFormattedTemplate(req: ContentRequest, i: nat)
    requires i < CaptionCount
    ensures Format(Print(TemplateAt(req, i)), EventText(req), DescriptionText(req), EmojiAt(req, i))
         == Some(Captions(req)[i].content)
  {
    FormatPrint(TemplateAt(req, i), EventText(req), DescriptionText(req), EmojiAt(req, i));
  }

  /** What `results_view` does. */
  datatype ResultsPage = RedirectHome | ShowResults(request: ContentRequest, texts: seq<Caption>)

  /** The saved requests and the `content_request_id` of the visitor's session. */
  class GeneratorSite {
    var requests: map<nat, ContentRequest>
    var nextId: nat
    var sessionRequestId: Option<int>

    ghost predicate Valid()
      reads this
    {
      0 < nextId && forall id :: id in requests ==> 0 < id < nextId
    }

    constructor ()
      ensures Valid() && requests == map[] && sessionRequestId == None
    {
      requests := map[];
      nextId := 1;
      sessionRequestId := None;
    }

    /**
      `form_valid`: the validated request is saved with its captions under a new id, and
      that id is put in the session.
    */
    method FormValid(req: ContentRequest) returns (id: nat)
      requires Valid() && ValidRequest(req)
      modifies this
      ensures Valid()
      ensures id !in old(requests) && 0 < id
      ensures requests == old(requests)[id := req.(generatedContent := Some(Captions(req)))]
      ensures sessionRequestId == Some(id)
    {
      var texts := GenerateContent(req);
      id := nextId;
      requests := requests[id := req.(generatedContent := Some(texts))];
      nextId := nextId + 1;
      sessionRequestId := Some(id);
    }

    /**
      `results_view`: with no id in the session (or the id 0, which Python reads as false)
      or an id whose row is gone, back to the form; otherwise the stored captions, or none.
    */
    function ResultsView(): (r: ResultsPage)
      reads this
      ensures r.ShowResults? <==> sessionRequestId.Some? && sessionRequestId.value != 0
                                  && sessionRequestId.value in requests
      ensures r.ShowResults? ==> r.request == requests[sessionRequestId.value]
                                 && r.texts == r.request.generatedContent.GetOr([])
    {
      match sessionRequestId
      case None => RedirectHome
      case Some(id) =>
        if id == 0 || id !in requests then RedirectHome
        else ShowResults(requests[id], requests[id].generatedContent.GetOr([]))
    }
  }

  /** Submitting a valid form and then opening the results page shows its five captions. */
  method SubmitThenView(site: GeneratorSite, req: ContentRequest) returns (page: ResultsPage)
    requires site.Valid() && ValidRequest(req)
    modifies site
    ensures site.Valid()
    ensures page.ShowResults? && page.texts == Captions(req) && |page.texts| == CaptionCount
  {
    var id := site.FormValid(req);
    page := site.ResultsView();
  }
}

=== FILE: productivity_rules.dfy ===
/**
  The decision rules of the productivity views (content_generator/views.py): the advice
  attached to a task, the daily work evaluation and summary text, the task-list and
  summary statistics, and the summary streak.
*/
module ProductivityRules {
  import opened Wrappers
  import opened ContentModels
  import Text

  // ---------------------------------------------------------------- task advice

  /** The four base messages of `generate_task_advice_with_llm`. */
  datatype AdviceCase = HighReluctant | HighWilling | LowReluctant | Routine

  /** Willingness in ['😭', '😕']. */
  predicate IsReluctant(w: Willingness) {
    w == VeryReluctant || w == Reluctant
  }

  /** Willingness in ['🙂', '😄']. */
  predicate IsWilling(w: Willingness) {
    w == Willing || w == Eager
  }

  /** The branch the advice takes; the first test that holds wins. */
  function Classify(p: Priority, w: Willingness): (k: AdviceCase)
    ensures k == HighReluctant <==> p == High && IsReluctant(w)
    ensures k == HighWilling <==> p == High && IsWilling(w)
    ensures k == LowReluctant <==> p == Low && IsReluctant(w)
    ensures k == Routine <==> (p == Medium || w == Neutral || (p == Low && IsWilling(w)))
  {
    assert !IsReluctant(w) && !IsWilling(w) ==> w == Neutral;
    assert p == High || p == Medium || p == Low;
    if p == High && IsReluctant(w) then HighReluctant
    else if p == High && IsWilling(w) then HighWilling
    else if p == Low && IsReluctant(w) then LowReluctant
    else Routine
  }

  function CaseText(k: AdviceCase): string {
    match k
    case HighReluctant => "这是一个高优先级但你不太愿意做的任务。建议将其分解成小步骤，逐步完成。"
    case HighWilling => "这是一个高优先级且你愿意做的任务。建议安排专门的时间块来高效完成。"
    case LowReluctant => "这是一个低优先级且你不太愿意做的任务。可以考虑委托给他人或延后处理。"
    case Routine => "这是一个常规任务。建议合理安排时间，平衡工作与休息。"
  }

  /** The sentence added for a due date; `formatted` is the date as the source prints it. */
  function DueSentence(formatted: string): string {
    " 任务截止时间是" + formatted + "，请合理安排时间。"
  }

  /**
    `generate_task_advice_with_llm`: the base message of the task's case, then the
    due-date sentence when the task has a due date. `formatDue` stands for
    `strftime('%Y-%m-%d %H:%M')`.
  */
  function TaskAdviceText(t: Task, formatDue: int -> string): (r: string)
    ensures |r| >= |CaseText(Classify(t.priority, t.willingness))|
    ensures r[..|CaseText(Classify(t.priority, t.willingness))|] == CaseText(Classify(t.priority, t.willingness))
  {
    var base := CaseText(Classify(t.priority, t.willingness));
    if t.dueDate.Some? then base + DueSentence(formatDue(t.dueDate.value)) else base
  }

  /** Each base message is told apart by its first nine characters. */
  lemma CaseTextsDiffer(k1: AdviceCase, k2: AdviceCase)
    requires k1 != k2
    ensures |CaseText(k1)| >= 9 && |CaseText(k2)| >= 9 && CaseText(k1)[..9] != CaseText(k2)[..9]
  {
    assert CaseText(HighReluctant)[8] == '但';
    assert CaseText(HighWilling)[8] == '且';
    assert CaseText(LowReluctant)[4] == '低';
    assert CaseText(Routine)[4] == '常';
    assert CaseText(HighReluctant)[4] == '高' && CaseText(HighWilling)[4] == '高';
    assert CaseText(k1)[..9][4] == CaseText(k1)[4] && CaseText(k1)[..9][8] == CaseText(k1)[8];
    assert CaseText(k2)[..9][4] == CaseText(k2)[4] && CaseText(k2)[..9][8] == CaseText(k2)[8];
  }

  /** The advice starts with exactly one of the four base messages: the one of the task's case. */
  lemma AdviceHasOneBaseMessage(t: Task, formatDue: int -> string, k: AdviceCase)
    ensures var r := TaskAdviceText(t, formatDue);
      (|r| >= |CaseText(k)| && r[..|CaseText(k)|] == CaseText(k)) <==> k == Classify(t.priority, t.willingness)
  {
    var r := TaskAdviceText(t, formatDue);
    var c := Classify(t.priority, t.willingness);
    if k != c {
      CaseTextsDiffer(k, c);
      if |r| >= |CaseText(k)| {
        assert r[..9] == CaseText(c)[..|CaseText(c)|][..9];
        assert r[..|CaseText(k)|][..9] == r[..9];
        assert r[..|CaseText(k)|][..9] != CaseText(k)[..9];
      }
    }
  }

  /** The due-date sentence is added exactly when the task has a due date. */
  lemma AdviceDueSentenceIffDueDate(t: Task, formatDue: int -> string)
    ensures TaskAdviceText(t, formatDue) == CaseText(Classify(t.priority, t.willingness)) <==> t.dueDate.None?
    ensures t.dueDate.Some? ==>
      TaskAdviceText(t, formatDue)[|CaseText(Classify(t.priority, t.willingness))|..] == DueSentence(formatDue(t.dueDate.value))
  {
    if t.dueDate.Some? {
      assert |DueSentence(formatDue(t.dueDate.value))| > 0;
    }
  }

  // ---------------------------------------------------------------- counting tasks

  function CountCompleted(tasks: seq<Task>): (n: nat)
    ensures n <= |tasks|
  {
    if tasks == [] then 0 else (if tasks[0].completed then 1 else 0) + CountCompleted(tasks[1..])
  }

  function CountPriority(tasks: seq<Task>, p: Priority): (n: nat)
    ensures n <= |tasks|
  {
    if tasks == [] then 0 else (if tasks[0].priority == p then 1 else 0) + CountPriority(tasks[1..], p)
  }

  function CountCompletedPriority(tasks: seq<Task>, p: Priority): (n: nat)
    ensures n <= CountPriority(tasks, p) && n <= CountCompleted(tasks)
  {
    if tasks == [] then 0
    else (if tasks[0].completed && tasks[0].priority == p then 1 else 0) + CountCompletedPriority(tasks[1..], p)
  }

  /** Tasks not completed whose due date lies before `now`. */
  function CountOverdue(tasks: seq<Task>, now: int): (n: nat)
    ensures n <= |tasks| - CountCompleted(tasks)
  {
    if tasks == [] then 0
    else (if tasks[0].dueDate.Some? && tasks[0].dueDate.value < now && !tasks[0].completed then 1 else 0)
         + CountOverdue(tasks[1..], now)
  }

  /** Every task has exactly one of the three priorities. */
  lemma {:induction false} PrioritiesPartition(tasks: seq<Task>)
    ensures CountPriority(tasks, High) + CountPriority(tasks, Medium) + CountPriority(tasks, Low) == |tasks|
  {
    if tasks != [] {
      PrioritiesPartition(tasks[1..]);
    }
  }

  /** Fewer completed than total high-priority tasks means some high-priority task is open. */
  lemma {:induction false} PendingHighPriority(tasks: seq<Task>)
    ensures CountCompletedPriority(tasks, High) < CountPriority(tasks, High)
        <==> exists i :: 0 <= i < |tasks| && tasks[i].priority == High && !tasks[i].completed
  {
    if tasks != [] {
      PendingHighPriority(tasks[1..]);
      if exists i :: 1 <= i < |tasks| && tasks[i].priority == High && !tasks[i].completed {
        var i :| 1 <= i < |tasks| && tasks[i].priority == High && !tasks[i].completed;
        assert tasks[1..][i - 1] == tasks[i];
      }
      if exists i :: 0 <= i < |tasks[1..]| && tasks[1..][i].priority == High && !tasks[1..][i].completed {
        var i :| 0 <= i < |tasks[1..]| && tasks[1..][i].priority == High && !tasks[1..][i].completed;
        assert tasks[i + 1] == tasks[1..][i];
      }
    }
  }

  // ---------------------------------------------------------------- work evaluation

  /** The four evaluation tiers, best first. */
  datatype Tier = Excellent | Good | Fair | Poor {
    function Rank(): nat {
      match this
      case Excellent => 3
      case Good => 2
      case Fair => 1
      case Poor => 0
    }
  }

  /**
    The tier of a completion rate `completed / total * 100`, compared with 80, 60 and 40
    by cross-multiplication instead of in floating point.
  */
  function TierOf(completed: nat, total: nat): (r: Tier)
    requires total > 0
    ensures r == Excellent <==> 100 * completed >= 80 * total
    ensures r == Good <==> 80 * total > 100 * completed >= 60 * total
    ensures r == Fair <==> 60 * total > 100 * completed >= 40 * total
    ensures r == Poor <==> 40 * total > 100 * completed
  {
    if 100 * completed >= 80 * total then Excellent
    else if 100 * completed >= 60 * total then Good
    else if 100 * completed >= 40 * total then Fair
    else Poor
  }

  /** Completing more tasks never lowers the tier. */
  lemma TierMonotone(c1: nat, c2: nat, total: nat)
    requires total > 0 && c1 <= c2
    ensures TierOf(c1, total).Rank() <= TierOf(c2, total).Rank()
  {
  }

  function TierText(t: Tier): string {
    match t
    case Excellent => "工作效率很高，任务完成度优秀。"
    case Good => "工作效率良好，任务完成度较好。"
    case Fair => "工作效率一般，还有提升空间。"
    case Poor => "工作效率较低，需要加强时间管理。"
  }

  const NoTasksEvaluation := "今日无任务安排。"
  const HighPriorityHint := "建议优先处理高优先级任务。"

  /**
    `generate_work_evaluation_with_llm` over the day's tasks: a fixed text with no tasks,
    otherwise the tier text, followed by the hint when a high-priority task is still open.
    The contract only composes the parts; what they promise is proved elsewhere: `TierOf`
    states the completion-rate band of each tier, and `EvaluationHintIffOpenHighPriority`
    that the hint appears exactly when a high-priority task of the day is still open.
  */
  function WorkEvaluation(todayTasks: seq<Task>): (r: string)
    ensures todayTasks == [] ==> r == NoTasksEvaluation
    ensures todayTasks != [] ==>
      var tier := TierText(TierOf(CountCompleted(todayTasks), |todayTasks|));
      r == tier + (if CountCompletedPriority(todayTasks, High) < CountPriority(todayTasks, High) then HighPriorityHint else "")
  {
    var total := |todayTasks|;
    if total == 0 then NoTasksEvaluation
    else
      var evaluation := TierText(TierOf(CountCompleted(todayTasks), total));
      if CountCompletedPriority(todayTasks, High) < CountPriority(todayTasks, High)
      then evaluation + HighPriorityHint
      else evaluation
  }

  /** The hint is added exactly when some high-priority task of the day is not completed. */
  lemma EvaluationHintIffOpenHighPriority(todayTasks: seq<Task>)
    requires todayTasks != []
    ensures WorkEvaluation(todayTasks) != TierText(TierOf(CountCompleted(todayTasks), |todayTasks|))
        <==> exists i :: 0 <= i < |todayTasks| && todayTasks[i].priority == High && !todayTasks[i].completed
  {
    PendingHighPriority(todayTasks);
    var tier := TierText(TierOf(CountCompleted(todayTasks), |todayTasks|));
    assert |tier + HighPriorityHint| > |tier|;
  }

  // ---------------------------------------------------------------- summary text

  /** Decimal digits of `n`, as Python's f-string writes an int. */
  function DecimalString(n: nat): (r: string)
    ensures r != []
    ensures forall k :: 0 <= k < |r| ==> '0' <= r[k] <= '9'
    ensures n > 0 ==> r[0] != '0'
  {
    var digit := ['0' + (n % 10) as char];
    if n < 10 then digit else DecimalString(n / 10) + digit
  }

  /** The number a string of decimal digits denotes, read left to right. */
  function DigitsValue(s: string): nat
    requires forall k :: 0 <= k < |s| ==> '0' <= s[k] <= '9'
  {
    if s == [] then 0 else 10 * DigitsValue(s[..|s| - 1]) + (s[|s| - 1] - '0') as nat
  }

  /** The digits written for `n` denote `n`. */
  lemma {:induction false} DecimalStringValue(n: nat)
    ensures DigitsValue(DecimalString(n)) == n
    decreases n
  {
    var r := DecimalString(n);
    var digit := ['0' + (n % 10) as char];
    if n >= 10 {
      DecimalStringValue(n / 10);
      assert r == DecimalString(n / 10) + digit;
      assert r[..|r| - 1] == DecimalString(n / 10);
    }
  }

  const NoTasksSummary := "今天没有安排任务，可以适当放松一下。"

  /**
    `generate_summary_with_llm`: with no task, a fixed text; otherwise the template that
    `random.choice` drew (index `pick`), filled with the counts and the rate text
    (`rateText` stands for the `%.1f` rendering of the completion rate).
  */
  function SummaryText(total: nat, completed: nat, pick: nat, rateText: string): (r: string)
    requires pick < 3
    ensures total == 0 ==> r == NoTasksSummary
    ensures total > 0 ==> r != NoTasksSummary
    ensures total > 0 ==> Text.Contains(r, DecimalString(completed)) && Text.Contains(r, rateText)
    ensures total > 0 && pick == 1 ==> Text.Contains(r, DecimalString(total))
  {
    if total == 0 then NoTasksSummary
    else
      var done := DecimalString(completed);
      var templates := [
        "今天完成了" + done + "个任务，完成率" + rateText + "%。继续保持良好的工作状态！",
        "今日任务完成情况：" + done + "/" + DecimalString(total) + "，完成率" + rateText + "%。做得很好！",
        "今天完成了" + done + "项任务，完成率" + rateText + "%。继续努力！"
      ];
      assert NoTasksSummary[1] == '天' && NoTasksSummary[2] == '没';
      assert pick != 1 ==> templates[pick][2] == '完';
      assert pick == 1 ==> templates[pick][1] == '日';
      SummaryHoldsCounts(templates[pick], done, DecimalString(total), rateText, pick);
      templates[pick]
  }

  /** Each summary template shows the completed count, the rate text and, in the second, the total. */
  lemma SummaryHoldsCounts(r: string, done: string, total: string, rateText: string, pick: nat)
    requires pick == 0 ==> r == "今天完成了" + done + "个任务，完成率" + rateText + "%。继续保持良好的工作状态！"
    requires pick == 1 ==> r == "今日任务完成情况：" + done + "/" + total + "，完成率" + rateText + "%。做得很好！"
    requires pick == 2 ==> r == "今天完成了" + done + "项任务，完成率" + rateText + "%。继续努力！"
    requires pick < 3
    ensures Text.Contains(r, done) && Text.Contains(r, rateText)
    ensures pick == 1 ==> Text.Contains(r, total)
  {
    if pick == 0 {
      assert r == ("今天完成了") + done + ("个任务，完成率" + rateText + "%。继续保持良好的工作状态！");
      Text.PlacedBetween("今天完成了", done, "个任务，完成率" + rateText + "%。继续保持良好的工作状态！");
      assert r == ("今天完成了" + done + "个任务，完成率") + rateText + ("%。继续保持良好的工作状态！");
      Text.PlacedBetween("今天完成了" + done + "个任务，完成率", rateText, "%。继续保持良好的工作状态！");
    } else if pick == 1 {
      assert r == ("今日任务完成情况：") + done + ("/" + total + "，完成率" + rateText + "%。做得很好！");
      Text.PlacedBetween("今日任务完成情况：", done, "/" + total + "，完成率" + rateText + "%。做得很好！");
      assert r == ("今日任务完成情况：" + done + "/") + total + ("，完成率" + rateText + "%。做得很好！");
      Text.PlacedBetween("今日任务完成情况：" + done + "/", total, "，完成率" + rateText + "%。做得很好！");
      assert r == ("今日任务完成情况：" + done + "/" + total + "，完成率") + rateText + ("%。做得很好！");
      Text.PlacedBetween("今日任务完成情况：" + done + "/" + total + "，完成率", rateText, "%。做得很好！");
    } else {
      assert r == ("今天完成了") + done + ("项任务，完成率" + rateText + "%。继续努力！");
      Text.PlacedBetween("今天完成了", done, "项任务，完成率" + rateText + "%。继续努力！");
      assert r == ("今天完成了" + done + "项任务，完成率") + rateText + ("%。继续努力！");
      Text.PlacedBetween("今天完成了" + done + "项任务，完成率", rateText, "%。继续努力！");
    }
  }

  // ---------------------------------------------------------------- task-list statistics

  /**
    Python's `round(num / den)` on the exact ratio: to the nearest integer, halves to the
    even neighbour.
  */
  function RoundHalfEven(num: nat, den: nat): (r: nat)
    requires den > 0
    ensures 2 * num <= (2 * r + 1) * den
    ensures (2 * r - 1) * den <= 2 * num
    ensures 2 * num == (2 * r + 1) * den ==> r % 2 == 0
    ensures 2 * num == (2 * r - 1) * den ==> r % 2 == 0
  {
    var q := num / den;
    var rem := num % den;
    var r := if 2 * rem < den then q
      else if 2 * rem > den then q + 1
      else if q % 2 == 0 then q
      else q + 1;
    RoundCase(num, den, q, rem, r);
    r
  }

  /** The contract of `RoundHalfEven`, from the quotient and remainder it rounds. */
  lemma RoundCase(num: int, den: int, q: int, rem: int, r: int)
    requires den > 0 && num == q * den + rem && 0 <= rem < den
    requires r == if 2 * rem < den then q else if 2 * rem > den then q + 1 else if q % 2 == 0 then q else q + 1
    ensures 2 * num <= (2 * r + 1) * den
    ensures (2 * r - 1) * den <= 2 * num
    ensures 2 * num == (2 * r + 1) * den ==> r % 2 == 0
    ensures 2 * num == (2 * r - 1) * den ==> r % 2 == 0
  {
    var m := q * den;
    assert (2 * q + 1) * den == 2 * m + den && (2 * q - 1) * den == 2 * m - den;
    assert (2 * q + 3) * den == 2 * m + 3 * den;
  }

  /** `round(part / whole * 100)` when `whole > 0`, else 0: the percentage rounded to the nearest integer. */
  function Percent(part: nat, whole: nat): (r: nat)
    ensures whole == 0 ==> r == 0
    ensures whole > 0 ==> (2 * r - 1) * whole <= 200 * part <= (2 * r + 1) * whole
  {
    if whole > 0 then RoundHalfEven(part * 100, whole) else 0
  }

  /** `a * w <= b * w` with a positive `w` gives `a <= b`. */
  lemma CancelFactor(a: int, b: int, w: int)
    requires w > 0 && a * w <= b * w
    ensures a <= b
  {
    assert a > b ==> a * w - b * w == (a - b) * w > 0;
  }

  /** Nothing gives 0, a part of the whole at most 100, the whole exactly 100. */
  lemma PercentBounds(part: nat, whole: nat)
    requires 0 < whole && part <= whole
    ensures part == 0 ==> Percent(part, whole) == 0
    ensures Percent(part, whole) <= 100
    ensures part == whole ==> Percent(part, whole) == 100
  {
    var r: int := Percent(part, whole);
    assert 200 * part <= 200 * whole;
    CancelFactor(2 * r - 1, 200, whole);
    if part == whole {
      CancelFactor(200, 2 * r + 1, whole);
    }
    if part == 0 {
      CancelFactor(2 * r - 1, 0, whole);
    }
  }

  function Max3(a: nat, b: nat, c: nat): (m: nat)
    ensures m >= a && m >= b && m >= c && (m == a || m == b || m == c)
  {
    if a >= b && a >= c then a else if b >= c then b else c
  }

  /** The counters `task_list` shows. */
  datatype TaskStats = TaskStats(
    total: nat, completed: nat, pending: int, overdue: nat, completionRate: nat,
    high: nat, medium: nat, low: nat,
    highPercent: nat, mediumPercent: nat, lowPercent: nat)

  /** `task_list`'s counters over the user's tasks at instant `now`. */
  function Stats(tasks: seq<Task>, now: int): TaskStats {
    var total := |tasks|;
    var completed := CountCompleted(tasks);
    var high := CountPriority(tasks, High);
    var medium := CountPriority(tasks, Medium);
    var low := CountPriority(tasks, Low);
    var maxCount := Max3(high, medium, low);
    TaskStats(total, completed, total - completed, CountOverdue(tasks, now), Percent(completed, total),
              high, medium, low,
              Percent(high, maxCount), Percent(medium, maxCount), Percent(low, maxCount))
  }

  /** What the task-list counters promise: pending and overdue tasks, the rate, the partition. */
  lemma StatsProperties(tasks: seq<Task>, now: int)
    ensures var s := Stats(tasks, now);
      && s.pending == s.total - s.completed >= 0
      && s.overdue <= s.pending
      && (s.total == 0 ==> s.completionRate == 0)
      && s.completionRate <= 100
      && (s.total > 0 && s.completed == s.total ==> s.completionRate == 100)
      && s.high + s.medium + s.low == s.total
  {
    var s := Stats(tasks, now);
    PrioritiesPartition(tasks);
    if s.total > 0 {
      PercentBounds(s.completed, s.total);
    }
  }

  /**
    The priority chart: every bar is at most 100, all are 0 without tasks, and each
    priority with the largest count gets a full bar.
  */
  lemma PriorityPercents(tasks: seq<Task>, now: int)
    ensures var s := Stats(tasks, now);
      && s.highPercent <= 100 && s.mediumPercent <= 100 && s.lowPercent <= 100
      && (s.total == 0 ==> s.highPercent == 0 && s.mediumPercent == 0 && s.lowPercent == 0)
      && (s.total > 0 && s.high == Max3(s.high, s.medium, s.low) ==> s.highPercent == 100)
      && (s.total > 0 && s.medium == Max3(s.high, s.medium, s.low) ==> s.mediumPercent == 100)
      && (s.total > 0 && s.low == Max3(s.high, s.medium, s.low) ==> s.lowPercent == 100)
  {
    var s := Stats(tasks, now);
    PrioritiesPartition(tasks);
    var m := Max3(s.high, s.medium, s.low);
    if m > 0 {
      PercentBounds(s.high, m);
      PercentBounds(s.medium, m);
      PercentBounds(s.low, m);
    }
  }

  // ---------------------------------------------------------------- daily-summary statistics

  /** The day `k` days before `today`. */
  function DayBefore(today: Day, k: nat): Day {
    today - k
  }

  /** The summary days up to and including `day`. */
  ghost function AtOrBefore(dates: set<Day>, day: Day): set<Day> {
    set d | d in dates && d <= day
  }

  /** `n` is the streak: the `n` days ending today all have a summary, the day before them has none. */
  ghost predicate IsStreak(dates: set<Day>, today: Day, n: nat) {
    (forall k :: 0 <= k < n ==> DayBefore(today, k) in dates) && DayBefore(today, n) !in dates
  }

  /**
    The streak loop of `daily_summary`: walk back from today while the day has a summary.
    `dates` are the days on which the user has a summary.
  */
  method Streak(dates: set<Day>, today: Day) returns (n: nat)
    ensures IsStreak(dates, today, n)
  {
    n := 0;
    var current := today;
    while current in dates
      invariant current == DayBefore(today, n)
      invariant forall k :: 0 <= k < n ==> DayBefore(today, k) in dates
      decreases |AtOrBefore(dates, current)|
    {
      assert AtOrBefore(dates, current - 1) == AtOrBefore(dates, current) - {current};
      n := n + 1;
      current := current - 1;
    }
  }

  /** The streak is determined by the dates and today. */
  lemma StreakUnique(dates: set<Day>, today: Day, n: nat, m: nat)
    requires IsStreak(dates, today, n) && IsStreak(dates, today, m)
    ensures n == m
  {
    assert n < m ==> DayBefore(today, n) in dates;
    assert m < n ==> DayBefore(today, m) in dates;
  }

  /** No summary today means a streak of 0. */
  lemma StreakZeroWithoutToday(dates: set<Day>, today: Day, n: nat)
    requires IsStreak(dates, today, n)
    ensures n == 0 <==> today !in dates
  {
    if n > 0 {
      assert DayBefore(today, 0) in dates;
    }
  }

  /** Summaries today, yesterday and three days ago: the gap two days ago stops the streak at 2. */
  lemma StreakStopsAtGap(today: Day, n: nat)
    requires IsStreak({today, today - 1, today - 3}, today, n)
    ensures n == 2
  {
    var dates := {today, today - 1, today - 3};
    assert DayBefore(today, 0) in dates && DayBefore(today, 1) in dates;
    assert DayBefore(today, 2) !in dates;
    assert IsStreak(dates, today, 2);
    StreakUnique(dates, today, n, 2);
  }

  /** Summaries on or after `from`. */
  function CountFrom(dates: set<Day>, from: Day): (n: nat)
    ensures n <= |dates|
  {
    var s := set d | d in dates && d >= from;
    assert dates == s + (dates - s) && s * (dates - s) == {};
    |s|
  }

  /** `min(int(count / days * 100), 100)`, and 0 when there are no days: the floored percentage, capped. */
  function Progress(count: nat, days: nat): (r: nat)
    ensures r <= 100
    ensures days == 0 ==> r == 0
    ensures days > 0 && r < 100 ==> r * days <= 100 * count < (r + 1) * days
    ensures days > 0 ==> (r == 100 <==> count >= days)
  {
    if days > 0 then
      var q := 100 * count / days;
      QuotientBounds(count, days);
      if q < 100 then q else 100
    else 0
  }

  /** The floored quotient of `100 * count` by `days` brackets the ratio, and reaches 100 exactly when `count >= days`. */
  lemma QuotientBounds(count: nat, days: nat)
    requires days > 0
    ensures (100 * count / days) * days <= 100 * count < (100 * count / days + 1) * days
    ensures 100 * count / days >= 100 <==> count >= days
  {
    var q := 100 * count / days;
    var m := 100 * count % days;
    assert 100 * count == q * days + m && 0 <= m < days;
    if q < 100 {
      MulMonotone(q + 1, 100, days);
    } else {
      MulMonotone(100, q, days);
    }
  }

  lemma MulMonotone(a: int, b: int, c: nat)
    requires a <= b
    ensures a * c <= b * c
  {
  }

  /** Reaching the number of days caps the progress at 100. */
  lemma ProgressFull(count: nat, days: nat)
    requires 0 < days <= count
    ensures Progress(count, days) == 100
  {
    var r := Progress(count, days);
    assert r < 100 ==> (r + 1) * days <= 100 * days;
  }

  datatype SummaryStats = SummaryStats(total: nat, thisWeek: nat, thisMonth: nat, monthProgress: nat, weekProgress: nat)

  /**
    The counters of `daily_summary`: `weekStart`, `monthStart` and `daysInMonth` come from
    the calendar; a week has 7 days.
  */
  function SummaryStatsOf(dates: set<Day>, weekStart: Day, monthStart: Day, daysInMonth: nat): (s: SummaryStats)
    ensures s.thisWeek <= s.total && s.thisMonth <= s.total && s.total == |dates|
    ensures s.monthProgress <= 100 && s.weekProgress <= 100
    ensures s.weekProgress < 100 ==> s.weekProgress * 7 <= 100 * s.thisWeek < (s.weekProgress + 1) * 7
    ensures s.weekProgress == 100 <==> s.thisWeek >= 7
    ensures daysInMonth == 0 ==> s.monthProgress == 0
    ensures daysInMonth > 0 && s.monthProgress < 100 ==>
      s.monthProgress * daysInMonth <= 100 * s.thisMonth < (s.monthProgress + 1) * daysInMonth
    ensures daysInMonth > 0 ==> (s.monthProgress == 100 <==> s.thisMonth >= daysInMonth)
  {
    var week := CountFrom(dates, weekStart);
    var month := CountFrom(dates, monthStart);
    SummaryStats(|dates|, week, month, Progress(month, daysInMonth), Progress(week, 7))
  }
}

=== FILE: productivity_store.dfy ===
/**
  The productivity views that change rows (content_generator/views.py): adding, toggling,
  re-rating and deleting tasks, fetching a task's advice, and saving daily summaries. The
  database tables are the fields of a `Board`; each handler is a method on it. Every
  handler runs for a logged-in user `user`.
*/
module ProductivityStore {
  import opened Wrappers
  import opened ContentModels
  import opened ContentForms
  import opened ProductivityRules

  /** A task row: the database id and the task. */
  datatype TaskRow = TaskRow(id: nat, task: Task)

  /** `get_object_or_404(Task, id=taskId, user=user)`: the index of the user's task with that id. */
  function FindTask(rows: seq<TaskRow>, taskId: nat, user: UserId): (r: Option<nat>)
    ensures r.Some? ==> r.value < |rows| && rows[r.value].id == taskId && rows[r.value].task.owner == user
    ensures r.None? <==> forall i :: 0 <= i < |rows| ==> !(rows[i].id == taskId && rows[i].task.owner == user)
  {
    if rows == [] then None
    else if rows[0].id == taskId && rows[0].task.owner == user then Some(0)
    else
      match FindTask(rows[1..], taskId, user)
      case None => None
      case Some(i) => Some(i + 1)
  }

  /** The user's tasks created on `day` (`created_at__date=today`). */
  function TasksCreatedOn(rows: seq<TaskRow>, user: UserId, day: Day): (r: seq<Task>)
    ensures |r| <= |rows|
    ensures forall t :: t in r ==> t.owner == user && t.createdDay == day
    ensures forall i :: 0 <= i < |rows| && rows[i].task.owner == user && rows[i].task.createdDay == day ==>
      rows[i].task in r
  {
    if rows == [] then []
    else
      var rest := TasksCreatedOn(rows[1..], user, day);
      if rows[0].task.owner == user && rows[0].task.createdDay == day then [rows[0].task] + rest else rest
  }

  /** All of the user's tasks. */
  function TasksOf(rows: seq<TaskRow>, user: UserId): (r: seq<Task>)
    ensures |r| <= |rows|
    ensures forall t :: t in r ==> t.owner == user
    ensures forall i :: 0 <= i < |rows| && rows[i].task.owner == user ==> rows[i].task in r
  {
    if rows == [] then []
    else
      var rest := TasksOf(rows[1..], user);
      if rows[0].task.owner == user then [rows[0].task] + rest else rest
  }

  // ---------------------------------------------------------------- advice rows

  /** The filter of `LLMAdvice.objects.get(user=…, advice_type='task', related_id=…)`. */
  predicate IsTaskAdviceFor(a: Advice, user: UserId, taskId: int) {
    a.owner == user && a.adviceType == TaskAdvice && a.relatedId == taskId
  }

  /** How many advice rows the lookup matches. */
  function CountAdviceFor(rows: seq<Advice>, user: UserId, taskId: int): (n: nat)
    ensures n <= |rows|
    ensures n == 0 <==> forall i :: 0 <= i < |rows| ==> !IsTaskAdviceFor(rows[i], user, taskId)
  {
    if rows == [] then 0
    else
      var last := rows[|rows| - 1];
      CountAdviceFor(rows[..|rows| - 1], user, taskId) + (if IsTaskAdviceFor(last, user, taskId) then 1 else 0)
  }

  /** The first advice row the lookup matches. */
  function FindAdviceFor(rows: seq<Advice>, user: UserId, taskId: int): (r: Option<nat>)
    ensures r.Some? ==> r.value < |rows| && IsTaskAdviceFor(rows[r.value], user, taskId)
    ensures r.Some? ==> forall j :: 0 <= j < r.value ==> !IsTaskAdviceFor(rows[j], user, taskId)
    ensures r.None? <==> forall i :: 0 <= i < |rows| ==> !IsTaskAdviceFor(rows[i], user, taskId)
  {
    if rows == [] then None
    else if IsTaskAdviceFor(rows[0], user, taskId) then Some(0)
    else
      match FindAdviceFor(rows[1..], user, taskId)
      case None => None
      case Some(i) => Some(i + 1)
  }

  /** Appending a matching row to a table with none gives exactly one match, the new row. */
  lemma AppendFirstAdvice(rows: seq<Advice>, a: Advice, user: UserId, taskId: int)
    requires CountAdviceFor(rows, user, taskId) == 0 && IsTaskAdviceFor(a, user, taskId)
    ensures CountAdviceFor(rows + [a], user, taskId) == 1
    ensures FindAdviceFor(rows + [a], user, taskId) == Some(|rows|)
  {
    assert (rows + [a])[..|rows|] == rows;
    var f := FindAdviceFor(rows + [a], user, taskId);
    assert f.Some? by {
      assert (rows + [a])[|rows|] == a;
    }
    forall j | 0 <= j < |rows|
      ensures !IsTaskAdviceFor((rows + [a])[j], user, taskId)
    {
      assert (rows + [a])[j] == rows[j];
    }
  }

  // ---------------------------------------------------------------- summary rows

  /** The row holding the key (owner, date), if any. */
  function FindSummary(rows: seq<DailySummary>, key: (UserId, Day)): (r: Option<nat>)
    ensures r.Some? ==> r.value < |rows| && SummaryKey(rows[r.value]) == key
    ensures r.None? <==> forall i :: 0 <= i < |rows| ==> SummaryKey(rows[i]) != key
  {
    if rows == [] then None
    else if SummaryKey(rows[0]) == key then Some(0)
    else
      match FindSummary(rows[1..], key)
      case None => None
      case Some(i) => Some(i + 1)
  }

  /** `update_or_create` on (owner, date): overwrite the row with the key, or add one. */
  function Upsert(rows: seq<DailySummary>, row: DailySummary): (r: seq<DailySummary>)
    ensures row in r
    ensures |r| == |rows| || |r| == |rows| + 1
  {
    match FindSummary(rows, SummaryKey(row))
    case Some(i) => assert rows[i := row][i] == row; rows[i := row]
    case None => rows + [row]
  }

  /** Under `unique_together`, a key names a single row. */
  lemma KeyDeterminesRow(rows: seq<DailySummary>, i: nat, j: nat)
    requires UniqueSummaries(rows) && i < |rows| && j < |rows| && SummaryKey(rows[i]) == SummaryKey(rows[j])
    ensures i == j
  {
  }

  /** The upsert keeps at most one row per (owner, date). */
  lemma UpsertKeepsUnique(rows: seq<DailySummary>, row: DailySummary)
    requires UniqueSummaries(rows)
    ensures UniqueSummaries(Upsert(rows, row))
  {
    var r := Upsert(rows, row);
    match FindSummary(rows, SummaryKey(row))
    case Some(k) =>
      forall i, j | 0 <= i < j < |r|
        ensures SummaryKey(r[i]) != SummaryKey(r[j])
      {
        assert SummaryKey(r[i]) == SummaryKey(rows[i]) && SummaryKey(r[j]) == SummaryKey(rows[j]);
      }
    case None =>
      forall i, j | 0 <= i < j < |r|
        ensures SummaryKey(r[i]) != SummaryKey(r[j])
      {
        if j == |rows| {
          assert r[i] == rows[i];
        } else {
          assert r[i] == rows[i] && r[j] == rows[j];
        }
      }
  }

  /** After the upsert the only row with the key is the new one. */
  lemma UpsertOnlyRowForKey(rows: seq<DailySummary>, row: DailySummary)
    requires UniqueSummaries(rows)
    ensures forall x :: x in Upsert(rows, row) && SummaryKey(x) == SummaryKey(row) ==> x == row
  {
    var r := Upsert(rows, row);
    forall x | x in r && SummaryKey(x) == SummaryKey(row)
      ensures x == row
    {
      var m :| 0 <= m < |r| && r[m] == x;
      match FindSummary(rows, SummaryKey(row))
      case Some(k) =>
        var previous := SummaryKey(rows[m]);
        if previous == SummaryKey(rows[k]) {
          KeyDeterminesRow(rows, m, k);
        }
      case None =>
        assert forall j :: 0 <= j < |rows| ==> r[j] == rows[j];
    }
  }

  /** Rows under any other key are exactly the rows that were there before. */
  lemma UpsertKeepsOthers(rows: seq<DailySummary>, row: DailySummary, x: DailySummary)
    requires SummaryKey(x) != SummaryKey(row)
    ensures x in Upsert(rows, row) <==> x in rows
  {
    var r := Upsert(rows, row);
    match FindSummary(rows, SummaryKey(row))
    case Some(k) =>
      if x in rows {
        var m :| 0 <= m < |rows| && rows[m] == x;
        assert m != k;
        assert r[m] == x;
      }
      if x in r {
        var m :| 0 <= m < |r| && r[m] == x;
        assert m != k;
        assert rows[m] == x;
      }
    case None =>
      assert r == rows + [row];
  }

  /** Saving the same row twice is the same as saving it once. */
  lemma UpsertIdempotent(rows: seq<DailySummary>, row: DailySummary)
    requires UniqueSummaries(rows)
    ensures Upsert(Upsert(rows, row), row) == Upsert(rows, row)
  {
    var r := Upsert(rows, row);
    UpsertKeepsUnique(rows, row);
    UpsertOnlyRowForKey(rows, row);
    var f := FindSummary(r, SummaryKey(row));
    assert f.Some? by {
      var m :| 0 <= m < |r| && r[m] == row;
      assert SummaryKey(r[m]) == SummaryKey(row);
    }
    assert r[f.value] == row;
    assert r[f.value := row] == r;
  }

  // ---------------------------------------------------------------- handler outcomes

  /** The JSON answers of `update_willingness`. */
  datatype WillingnessReply = WillingnessSaved(willingness: string) | InvalidWillingness | UpdateFailed

  /** The outcomes of `get_llm_advice`; `MultipleAdvice` is the uncaught `MultipleObjectsReturned`. */
  datatype AdviceReply = AdviceFound(advice: string) | TaskNotFound | MultipleAdvice

  /** The posted `date`: absent, not `%Y-%m-%d`, or the parsed day. */
  datatype DateField = DateMissing | DateMalformed | DateParsed(day: Day)

  /**
    The outcomes of a summary submission: saved, the caught `ValueError` of a malformed
    date, or an uncaught error (a missing date or summary).
  */
  datatype SummaryReply = SummarySaved | DateFormatError | SummaryServerError

  /** The rows of the productivity app. */
  class Board {
    var taskRows: seq<TaskRow>
    var nextTaskId: nat
    var advice: seq<Advice>
    var summaries: seq<DailySummary>

    ghost predicate Valid()
      reads this
    {
      && nextTaskId > 0
      && (forall i :: 0 <= i < |taskRows| ==> 0 < taskRows[i].id < nextTaskId)
      && (forall i, j :: 0 <= i < j < |taskRows| ==> taskRows[i].id != taskRows[j].id)
      && UniqueSummaries(summaries)
    }

    constructor()
      ensures Valid()
      ensures taskRows == [] && advice == [] && summaries == [] && nextTaskId == 1
    {
      taskRows := [];
      nextTaskId := 1;
      advice := [];
      summaries := [];
    }

    /**
      `add_task`: a valid `TaskForm` adds the task under a fresh id and one task-advice row
      for it; an invalid form is shown again with its errors and changes nothing.
    */
    method AddTask(user: UserId, input: TaskInput, today: Day, formatDue: int -> string) returns (r: Result<nat, seq<FormError>>)
      requires Valid()
      modifies this
      ensures Valid()
      ensures summaries == old(summaries)
      ensures r.Failure? <==> TaskForm(user, input, today).Failure?
      ensures r.Failure? ==> r.error == TaskForm(user, input, today).error
      ensures r.Failure? ==> taskRows == old(taskRows) && advice == old(advice) && nextTaskId == old(nextTaskId)
      ensures r.Success? ==>
        var t := TaskForm(user, input, today).value;
        && r.value == old(nextTaskId)
        && taskRows == old(taskRows) + [TaskRow(r.value, t)]
        && advice == old(advice) + [Advice(user, TaskAdviceText(t, formatDue), TaskAdvice, r.value)]
        && nextTaskId == old(nextTaskId) + 1
    {
      match TaskForm(user, input, today)
      case Failure(e) =>
        r := Failure(e);
      case Success(t) =>
        var id := nextTaskId;
        taskRows := taskRows + [TaskRow(id, t)];
        nextTaskId := nextTaskId + 1;
        advice := advice + [Advice(user, TaskAdviceText(t, formatDue), TaskAdvice, id)];
        r := Success(id);
    }

    /** `toggle_task_completion`: flips `completed` of the user's task and nothing else; 404 otherwise. */
    method ToggleCompletion(user: UserId, taskId: nat) returns (found: bool)
      requires Valid()
      modifies this
      ensures Valid()
      ensures found <==> FindTask(old(taskRows), taskId, user).Some?
      ensures !found ==> taskRows == old(taskRows)
      ensures found ==>
        var i := FindTask(old(taskRows), taskId, user).value;
        var t := old(taskRows)[i].task;
        taskRows == old(taskRows)[i := TaskRow(taskId, t.(completed := !t.completed))]
      ensures advice == old(advice) && summaries == old(summaries) && nextTaskId == old(nextTaskId)
    {
      match FindTask(taskRows, taskId, user)
      case None =>
        found := false;
      case Some(i) =>
        var t := taskRows[i].task;
        taskRows := taskRows[i := TaskRow(taskId, t.(completed := !t.completed))];
        found := true;
    }

    /**
      `update_willingness`. `body` is the parsed JSON body: None when it is not a JSON
      object, Some(None) when it has no string `willingness`. A missing task raises 404
      inside the `try`, so it is answered like a bad body.
    */
    method UpdateWillingness(user: UserId, taskId: nat, body: Option<Option<string>>) returns (reply: WillingnessReply)
      requires Valid()
      modifies this
      ensures Valid()
      ensures advice == old(advice) && summaries == old(summaries) && nextTaskId == old(nextTaskId)
      ensures (FindTask(old(taskRows), taskId, user).None? || body.None?) ==> reply == UpdateFailed
      ensures FindTask(old(taskRows), taskId, user).Some? && body.Some? && !reply.WillingnessSaved? ==>
        reply == InvalidWillingness
      ensures reply.WillingnessSaved? <==>
        (FindTask(old(taskRows), taskId, user).Some? && body.Some? && body.value.Some?
         && ParseWillingness(body.value.value).Some?)
      ensures !reply.WillingnessSaved? ==> taskRows == old(taskRows)
      ensures reply.WillingnessSaved? ==>
        var i := FindTask(old(taskRows), taskId, user).value;
        var t := old(taskRows)[i].task;
        && reply.willingness == body.value.value
        && taskRows == old(taskRows)[i := TaskRow(taskId, t.(willingness := ParseWillingness(body.value.value).value))]
    {
      var found := FindTask(taskRows, taskId, user);
      if found.None? || body.None? {
        return UpdateFailed;
      }
      var i := found.value;
      if body.value.None? {
        return InvalidWillingness;
      }
      match ParseWillingness(body.value.value)
      case None =>
        reply := InvalidWillingness;
      case Some(w) =>
        var t := taskRows[i].task;
        taskRows := taskRows[i := TaskRow(taskId, t.(willingness := w))];
        reply := WillingnessSaved(body.value.value);
    }

    /**
      `get_llm_advice`: reuse the one task-advice row of the task, create it when there is
      none; two or more matching rows make the lookup raise.
    */
    method GetLlmAdvice(user: UserId, taskId: nat, formatDue: int -> string) returns (reply: AdviceReply)
      requires Valid()
      modifies this
      ensures Valid()
      ensures taskRows == old(taskRows) && summaries == old(summaries) && nextTaskId == old(nextTaskId)
      ensures FindTask(old(taskRows), taskId, user).None? ==> reply == TaskNotFound && advice == old(advice)
      ensures FindTask(old(taskRows), taskId, user).Some? ==>
        var n := CountAdviceFor(old(advice), user, taskId);
        var text := TaskAdviceText(old(taskRows)[FindTask(old(taskRows), taskId, user).value].task, formatDue);
        && (n == 0 ==> reply == AdviceFound(text) && advice == old(advice) + [Advice(user, text, TaskAdvice, taskId)])
        && (n == 1 ==> reply == AdviceFound(old(advice)[FindAdviceFor(old(advice), user, taskId).value].content)
                       && advice == old(advice))
        && (n >= 2 ==> reply == MultipleAdvice && advice == old(advice))
    {
      match FindTask(taskRows, taskId, user)
      case None =>
        reply := TaskNotFound;
      case Some(i) =>
        var n := CountAdviceFor(advice, user, taskId);
        if n == 0 {
          var text := TaskAdviceText(taskRows[i].task, formatDue);
          advice := advice + [Advice(user, text, TaskAdvice, taskId)];
          reply := AdviceFound(text);
        } else if n == 1 {
          var k := FindAdviceFor(advice, user, taskId);
          reply := AdviceFound(advice[k.value].content);
        } else {
          reply := MultipleAdvice;
        }
    }

    /** `delete_task`: removes the row; advice rows pointing at it stay. */
    method DeleteTask(user: UserId, taskId: nat) returns (found: bool)
      requires Valid()
      modifies this
      ensures Valid()
      ensures found <==> FindTask(old(taskRows), taskId, user).Some?
      ensures !found ==> taskRows == old(taskRows)
      ensures found ==>
        var i := FindTask(old(taskRows), taskId, user).value;
        taskRows == old(taskRows)[..i] + old(taskRows)[i + 1..]
      ensures advice == old(advice) && summaries == old(summaries) && nextTaskId == old(nextTaskId)
    {
      match FindTask(taskRows, taskId, user)
      case None =>
        found := false;
      case Some(i) =>
        ghost var before := taskRows;
        taskRows := taskRows[..i] + taskRows[i + 1..];
        assert forall k :: 0 <= k < |taskRows| ==> taskRows[k] == (if k < i then before[k] else before[k + 1]);
        found := true;
    }

    /**
      The POST branch of `daily_summary`: a parsed date upserts (user, date) with the
      summary text and the evaluation ('' when left out); a malformed date changes nothing.
    */
    method SubmitSummary(user: UserId, date: DateField, summary: Option<string>, workEvaluation: Option<string>)
      returns (reply: SummaryReply)
      requires Valid()
      modifies this
      ensures Valid()
      ensures taskRows == old(taskRows) && advice == old(advice) && nextTaskId == old(nextTaskId)
      ensures date.DateMalformed? ==> reply == DateFormatError
      ensures (date.DateMissing? || (date.DateParsed? && summary.None?)) ==> reply == SummaryServerError
      ensures reply != SummarySaved ==> summaries == old(summaries)
      ensures reply == SummarySaved <==> date.DateParsed? && summary.Some?
      ensures reply == SummarySaved ==>
        summaries == Upsert(old(summaries), DailySummary(user, date.day, summary.value, Some(workEvaluation.GetOr(""))))
    {
      match date
      case DateMissing =>
        reply := SummaryServerError;
      case DateMalformed =>
        reply := DateFormatError;
      case DateParsed(day) =>
        if summary.None? {
          reply := SummaryServerError;
        } else {
          var row := DailySummary(user, day, summary.value, Some(workEvaluation.GetOr("")));
          UpsertKeepsUnique(summaries, row);
          summaries := Upsert(summaries, row);
          reply := SummarySaved;
        }
    }

    /**
      `generate_daily_summary`: the summary and evaluation of the user's tasks created today,
      saved under (user, today). `pick` is the template `random.choice` drew and `rateText`
      the printed completion rate.
    */
    method GenerateDailySummary(user: UserId, today: Day, pick: nat, rateText: string)
      requires Valid() && pick < 3
      modifies this
      ensures Valid()
      ensures taskRows == old(taskRows) && advice == old(advice) && nextTaskId == old(nextTaskId)
      ensures
        var todays := TasksCreatedOn(old(taskRows), user, today);
        summaries == Upsert(old(summaries), DailySummary(user, today,
          SummaryText(|todays|, CountCompleted(todays), pick, rateText), Some(WorkEvaluation(todays))))
    {
      var todays := TasksCreatedOn(taskRows, user, today);
      var row := DailySummary(user, today, SummaryText(|todays|, CountCompleted(todays), pick, rateText), Some(WorkEvaluation(todays)));
      UpsertKeepsUnique(summaries, row);
      summaries := Upsert(summaries, row);
    }

    /** The counters `task_list` shows the user at instant `now`. */
    function TaskListStats(user: UserId, now: int): (s: TaskStats)
      reads this
      ensures s.total == |TasksOf(taskRows, user)| && s.completionRate <= 100
    {
      StatsProperties(TasksOf(taskRows, user), now);
      Stats(TasksOf(taskRows, user), now)
    }
  }

  /** Two toggles of the same task restore the table. */
  method ToggleTwice(board: Board, user: UserId, taskId: nat)
    requires board.Valid()
    modifies board
    ensures board.Valid()
    ensures board.taskRows == old(board.taskRows)
  {
    var first := board.ToggleCompletion(user, taskId);
    var second := board.ToggleCompletion(user, taskId);
  }

  /** Asking twice for a task's advice adds at most one row, and both answers agree. */
  method AskAdviceTwice(board: Board, user: UserId, taskId: nat, formatDue: int -> string)
    returns (first: AdviceReply, second: AdviceReply)
    requires board.Valid()
    modifies board
    ensures board.Valid()
    ensures first == second
    ensures |board.advice| <= |old(board.advice)| + 1
  {
    ghost var before := board.advice;
    first := board.GetLlmAdvice(user, taskId, formatDue);
    if first.AdviceFound? && CountAdviceFor(before, user, taskId) == 0 {
      var text := first.advice;
      AppendFirstAdvice(before, Advice(user, text, TaskAdvice, taskId), user, taskId);
    }
    second := board.GetLlmAdvice(user, taskId, formatDue);
  }
}

=== FILE: text.dfy ===
/**
  String helpers that the views rely on: Python's `str.strip()`, `str.lower()` on ASCII
  letters, and the `in` operator on strings (substring search).
*/
module Text {

  /** The characters for which Python's `str.isspace()` is true. */
  predicate IsSpace(c: char) {
    c == ' ' || c == '\t' || c == '\n' || c == '\r' || c == '\U{000B}' || c == '\U{000C}'
    || ('\U{001C}' <= c <= '\U{001F}') || c == '\U{0085}' || c == '\U{00A0}' || c == '\U{1680}'
    || ('\U{2000}' <= c <= '\U{200A}') || c == '\U{2028}' || c == '\U{2029}' || c == '\U{202F}'
    || c == '\U{205F}' || c == '\U{3000}'
  }

  /** Number of whitespace characters at the start of `s`. */
  function LeadingSpaces(s: string): (n: nat)
    ensures n <= |s|
    ensures forall k :: 0 <= k < n ==> IsSpace(s[k])
    ensures n < |s| ==> !IsSpace(s[n])
  {
    if |s| == 0 || !IsSpace(s[0]) then 0 else 1 + LeadingSpaces(s[1..])
  }

  /** Number of whitespace characters at the end of `s`. */
  function TrailingSpaces(s: string): (n: nat)
    ensures n <= |s|
    ensures forall k :: |s| - n <= k < |s| ==> IsSpace(s[k])
    ensures n < |s| ==> !IsSpace(s[|s| - 1 - n])
  {
    if |s| == 0 || !IsSpace(s[|s| - 1]) then 0 else 1 + TrailingSpaces(s[..|s| - 1])
  }

  /** Python's `s.strip()`: `s` without its leading and trailing whitespace. */
  function Strip(s: string): (r: string)
    ensures |r| <= |s|
    ensures r == [] || (!IsSpace(r[0]) && !IsSpace(r[|r| - 1]))
    ensures exists i :: Padded(s, r, i)
  {
    var i := LeadingSpaces(s);
    var rest := s[i..];
    var j := TrailingSpaces(rest);
    assert Padded(s, rest[..|rest| - j], i);
    rest[..|rest| - j]
  }

  predicate AllSpace(s: string) {
    forall k :: 0 <= k < |s| ==> IsSpace(s[k])
  }

  /** `s` is `r` with only whitespace before (the first `i` characters) and after it. */
  predicate Padded(s: string, r: string, i: int) {
    0 <= i <= |s| - |r| && s[i..i + |r|] == r && AllSpace(s[..i]) && AllSpace(s[i + |r|..])
  }

  /** Stripping twice is stripping once. */
  lemma StripIdempotent(s: string)
    ensures Strip(Strip(s)) == Strip(s)
  {
    var r := Strip(s);
    if r != [] {
      assert LeadingSpaces(r) == 0;
      assert TrailingSpaces(r) == 0;
    }
  }

  /** Whitespace around a text with non-space ends is exactly what `strip()` removes. */
  lemma StripOfPadded(s: string, r: string, i: int)
    requires Padded(s, r, i) && r != [] && !IsSpace(r[0]) && !IsSpace(r[|r| - 1])
    ensures Strip(s) == r
  {
    var n := LeadingSpaces(s);
    assert s[i] == r[0];
    assert forall k :: 0 <= k < i ==> s[..i][k] == s[k];
    assert n == i;
    var rest := s[i..];
    var m := TrailingSpaces(rest);
    assert rest[|r| - 1] == r[|r| - 1];
    assert forall k :: |r| <= k < |rest| ==> rest[k] == s[i + |r|..][k - |r|];
    assert m == |rest| - |r|;
    assert rest[..|rest| - m] == r;
  }

  /** Python's `c.lower()` on ASCII letters; every other character is kept. */
  function LowerChar(c: char): (r: char)
    ensures 'A' <= c <= 'Z' ==> r != c && 'a' <= r <= 'z'
    ensures !('A' <= c <= 'Z') ==> r == c
  {
    if 'A' <= c <= 'Z' then (c as int - 'A' as int + 'a' as int) as char else c
  }

  function Lower(s: string): (r: string)
    ensures |r| == |s|
    ensures forall k :: 0 <= k < |s| ==> r[k] == LowerChar(s[k])
  {
    seq(|s|, k requires 0 <= k < |s| => LowerChar(s[k]))
  }

  lemma LowerAppend(a: string, b: string)
    ensures Lower(a + b) == Lower(a) + Lower(b)
  {
    assert forall k :: 0 <= k < |a + b| ==> Lower(a + b)[k] == (Lower(a) + Lower(b))[k];
  }

  /** `needle` occurs in `s` starting at index `i`. */
  predicate OccursAt(needle: string, s: string, i: int) {
    0 <= i && i + |needle| <= |s| && s[i..i + |needle|] == needle
  }

  /** Python's `needle in s` on two strings. */
  predicate Contains(s: string, needle: string) {
    exists i :: 0 <= i <= |s| - |needle| && OccursAt(needle, s, i)
  }

  /** A substring stays a substring when characters are added on either side. */
  lemma {:induction false} ContainsExtend(s: string, needle: string, before: string, after: string)
    requires Contains(s, needle)
    ensures Contains(before + s + after, needle)
  {
    var i :| 0 <= i <= |s| - |needle| && OccursAt(needle, s, i);
    var t := before + s + after;
    assert t[|before| + i..|before| + i + |needle|] == s[i..i + |needle|];
    assert OccursAt(needle, t, |before| + i);
  }

  /** A string contains whatever was placed in it between two other strings. */
  lemma PlacedBetween(before: string, needle: string, after: string)
    ensures Contains(before + needle + after, needle)
  {
    var t := before + needle + after;
    assert t[|before|..|before| + |needle|] == needle;
    assert OccursAt(needle, t, |before|);
  }

  /** An occurrence of `needle` also holds every prefix of `needle`. */
  lemma {:induction false} ContainsPrefix(s: string, needle: string, n: nat)
    requires Contains(s, needle) && n <= |needle|
    ensures Contains(s, needle[..n])
  {
    var i :| 0 <= i <= |s| - |needle| && OccursAt(needle, s, i);
    assert s[i..i + n] == s[i..i + |needle|][..n];
    assert OccursAt(needle[..n], s, i);
  }

  /** An occurrence of `needle` also holds every suffix of `needle`. */
  lemma {:induction false} ContainsSuffix(s: string, needle: string, n: nat)
    requires Contains(s, needle) && n <= |needle|
    ensures Contains(s, needle[n..])
  {
    var i :| 0 <= i <= |s| - |needle| && OccursAt(needle, s, i);
    assert s[i + n..i + |needle|] == s[i..i + |needle|][n..];
    assert OccursAt(needle[n..], s, i + n);
  }

  /** Only the empty string occurs in the empty string. */
  lemma NothingInEmpty(needle: string)
    requires needle != []
    ensures !Contains([], needle)
  {
  }
}

=== FILE: wrappers.dfy ===
/** Option and Result for values the source code may lack and for its error paths. */
module Wrappers {

  datatype Option<+T> = None | Some(value: T) {
    /** The value, or `default` when there is none (Python's `x or default` on a missing field). */
    function GetOr(default: T): T {
      match this
      case Some(v) => v
      case None => default
    }
  }

  datatype Result<+R, +E> = Success(value: R) | Failure(error: E)
}
